=== FILE: README.md ===
# Streaming chat-turn engine of the HR agent frontend, in Dafny

The HR agent frontend sends a user's message to a backend agent and renders the answer as it
streams back over server-sent events. This project models the engine behind one chat turn,
in both versions found in the repository, and proves properties of the model:

- `hooks/useChat.ts` (module `UseChat`). `sendMessage` appends the user's message and an empty
  "thinking" assistant placeholder. It reads the response body chunk by chunk and cuts the
  text into frames on blank lines. It decodes every `data: ` frame into an event
  (`token`, `tool_start`, `tool_end`, `response`, `error`) and applies each event to the last
  assistant message: its content, its own list of steps, and its thinking flag. On a network
  failure an apology message is appended. In the end the last message stops thinking.
  `getFriendlyName` (module `FriendlyNames`) chooses the label of a tool step.
- `app/page.tsx` (module `PageChat`), the older version. Its messages hold text only, and its
  steps form one list for the whole conversation. `handleSubmit` refuses a blank input or a
  turn that is still loading. It resolves the approval steps still pending. The first token
  replaces the placeholder and later tokens append to it.
- The framing loop both versions share (module `Framing`), over the JavaScript string
  operations it relies on (module `Strings`). The records of `types/chat.ts` and the decoding
  of a parsed payload live in module `ChatTypes`.

The network, `JSON.parse` and the clock are parameters. A `Transport` gives the text chunks
the reader delivered and says whether the request or a later read failed after them.
`parse: string -> Option<Payload>` stands for `JSON.parse`, `None` being a parse error. A
`clock: nat -> string` gives the text that `Date.now()`/`Math.random()` would produce for the
k-th event. React state updates are modelled as pure functions applied in the order the
updaters are queued.

The model follows the code on these points:

- A network failure appends an apology message; it does not add an error step.
- The hook never resolves approval steps on send; only the page does.
- The hook's `tool_end` completes only the first step with the run id. The page completes
  every step with that id.
- The hook's `response` stops the thinking indicator only when it asks for approval.
- The hook checks for a duplicate `tool_start` with the raw `run_id`. The page checks with the
  id it is about to use, so a tool start on the page never adds a step whose id is already
  present. Neither version checks the clock-derived ids of error and approval steps: two
  error steps, or two approval steps, stamped in the same millisecond share an id.

## Model

| member | source | states |
|---|---|---|
| FriendlyNames.FriendlyName | hooks/useChat.ts:7-19 | the label is the one of the first rule, in source order, whose text the tool name contains, and the default label when no rule matches |
| FriendlyNames.DefaultIffNoMatch | hooks/useChat.ts:7-18 | a tool name gets "Processing request..." if and only if it contains none of the ten rule texts |
| FriendlyNames.GetEmployeeFirst | hooks/useChat.ts:8 | a name containing `get_employee` is labelled by that rule, whatever else it contains |
| FriendlyNames.ListLeavesBeforeGetLeave | hooks/useChat.ts:16-17 | `list_leaves` wins over `get_leave` when a name contains both, because it is tried first |
| FriendlyNames.ListEmployeesLabel | hooks/useChat.ts:9 | the tool `list_employees_tool` is labelled "Listing employees..." (it does not contain `get_employee`) |
| Strings.Split | hooks/useChat.ts:82 | `split("\n\n")` gives at least one piece; with JoinSplit, SplitPiecesHaveNoDelim and SplitPiecesLeftmost it is pinned down by SplitUnique |
| Strings.JoinSplit | hooks/useChat.ts:82 | splitting on "\n\n" loses nothing: joining the pieces gives the text back |
| Strings.SplitAppend | hooks/useChat.ts:81-83 | appending text to a buffer leaves the complete pieces as they were; only the open last piece meets the new text |
| Strings.SplitPiecesHaveNoDelim | hooks/useChat.ts:82 | no piece of a split contains a blank line |
| Strings.SplitPiecesLeftmost | hooks/useChat.ts:82 | the text is cut at the leftmost delimiter, scanning left to right: no piece but the last ends in a newline |
| Strings.ThreeNewlinesSplit | hooks/useChat.ts:82 | "\n\n\n" splits into "" and "\n", as JavaScript's `split` gives, and not into "\n" and "" as a cut from the right would |
| Strings.SplitUnique | hooks/useChat.ts:82 | any pieces that join back to the text, hold no blank line and, but for the last, do not end in a newline are exactly the pieces of the split: the split is the text cut at every blank line, from the left |
| Strings.Utf16Length | hooks/useChat.ts:106 | the length JavaScript reports lies between the number of characters and twice it, and equals the number of characters when all lie in the Basic Multilingual Plane |
| Strings.Utf16LengthAppend | hooks/useChat.ts:104-106 | the length of a concatenation is the sum of the lengths, so appending a token never shortens the content |
| Strings.ThreeEmojiAreSixUnits | hooks/useChat.ts:106 | three emoji are three characters but six code units, enough to stop the thinking indicator |
| Strings.TrimStart | app/page.tsx:189 | the result is a suffix of the text, everything cut is white space, and the result does not start with white space |
| Strings.TrimEnd | app/page.tsx:189 | the result is a prefix of the text, everything cut is white space, and the result does not end with white space |
| Strings.Trim | app/page.tsx:189 | the trimmed text is a window of the input that neither starts nor ends with white space, and everything cut off before and after it is white space |
| Strings.TrimEmptyIffBlank | app/page.tsx:189 | `!input.trim()` holds exactly when the input is made of ECMAScript white space only |
| ChatTypes.Decode | hooks/useChat.ts:104-166 | a payload becomes the event its `type` names, carrying that payload's fields, whatever other fields it has; it gives no event exactly when the `type` is unknown, a `token` or `response` has no `content` text, or a `tool_start` has no `name` text |
| ChatTypes.DecodePayloadOf | hooks/useChat.ts:104-166 | every event is what the payload sent for it decodes to: the classification loses no event |
| ChatTypes.AppendKeepsDistinct | hooks/useChat.ts:111-122 | appending an id not yet present keeps a list of ids pairwise distinct |
| ChatTypes.IdOr | hooks/useChat.ts:114 | `run_id \|\| fallback`: a non-empty run id is kept, an absent or empty one is replaced by the fallback |
| Framing.Feed | hooks/useChat.ts:81-83 | one read keeps the frames so far, the new frames and new buffer join back to the old buffer plus the chunk, and the buffer holds no blank line |
| Framing.Read | hooks/useChat.ts:74-83 | the loop starts from an empty buffer, and the buffer it holds back never contains a blank line |
| Framing.ReadIsSplitOfConcat | hooks/useChat.ts:76-88 | whatever the chunking, the frames handled are the complete pieces of the whole text split on blank lines, and the buffer is its last piece |
| Framing.ChunkingInvariant | hooks/useChat.ts:76-83 | two chunkings of the same text give the same frames and the same buffer |
| Framing.SplitNoDelim | hooks/useChat.ts:82-83 | a text without a blank line is one piece, held back in the buffer |
| Framing.CompleteFramesThenTail | hooks/useChat.ts:76-88 | N well-formed frames, each closed by a blank line, followed by an open tail yield exactly those N frames in order; the tail stays buffered |
| Framing.DataOf | hooks/useChat.ts:86-88 | a frame carries a payload exactly when it is `data: ` followed by a non-empty text, and the payload is that text |
| Framing.EventOf | hooks/useChat.ts:86-91 | a frame yields at most one event, and only when it carries a payload that parses |
| Framing.EventsOf | hooks/useChat.ts:85-91 | the frames give at most one event each, in frame order; EventsOfAppend and EventsOfDataFrames fix which |
| Framing.EventsOfAppend | hooks/useChat.ts:85 | the events of two runs of frames are the events of the first followed by those of the second |
| Framing.HandleFrames | hooks/useChat.ts:85-91 | the inner loop yields the events of the frames, in frame order |
| Framing.DataOfFrame | hooks/useChat.ts:86-88 | a `data: ` frame with a non-empty payload gives that payload back |
| Framing.EventsOfDataFrames | hooks/useChat.ts:85-91 | frames whose payloads parse and decode to some events, whatever extra fields the payloads carry, give back exactly those events, in order |
| Framing.ReadChunk | hooks/useChat.ts:81-91 | one pass of the loop: the new buffer is the last piece of the old buffer followed by the chunk, and the events are those of the pieces before it |
| Framing.ReadStep | hooks/useChat.ts:76-91 | one more chunk turns the split of the text read so far into the split of the longer text: only the held-back piece meets the chunk, and the events grow by those of the new complete pieces |
| Framing.ReadStream | hooks/useChat.ts:76-88 | the reading loop yields the events of all the complete frames of the whole text, never of the unterminated tail (the same loop is at app/page.tsx:221-233) |
| Framing.EncodedStream | hooks/useChat.ts:76-91 | end to end: a response made of `data: ` frames whose payloads decode to some events, each closed by a blank line, plus an open tail, yields exactly those events however it was chunked |
| UseChat.Send | hooks/useChat.ts:51-57 | two messages are appended: the user's text, then an empty assistant message that is thinking and has no steps |
| UseChat.FindIndex | hooks/useChat.ts:127 | the index found is the first step whose id equals the run id; there is none exactly when no step has that id |
| UseChat.OnToken | hooks/useChat.ts:104-107 | the token text is appended; the message stops thinking once its content is longer than five UTF-16 code units (JavaScript's `length`), otherwise the flag is unchanged |
| UseChat.OnToolStart | hooks/useChat.ts:109-124 | the message is thinking again; a pending step labelled by the tool is appended unless a step already has the run id |
| UseChat.OnToolEnd | hooks/useChat.ts:126-136 | the first step with the run id becomes complete with the output, every other step is unchanged; without such a step nothing changes |
| UseChat.OnResponse | hooks/useChat.ts:138-152 | the content is replaced; a text containing "APPROVAL REQUIRED" appends a pending approval step and stops the thinking indicator |
| UseChat.OnError | hooks/useChat.ts:154-166 | an error step holding the error text is appended and the message stops thinking |
| UseChat.Update | hooks/useChat.ts:102-166 | no event changes the role of the message |
| UseChat.ApplyEvent | hooks/useChat.ts:93-170 | only the last message may change, and only if it is an assistant message; the transcript keeps its length |
| UseChat.Fold | hooks/useChat.ts:85-170 | applying the events in order keeps the length and every message before the last |
| UseChat.Finalize | hooks/useChat.ts:182-192 | the last message stops thinking when it is an assistant message; nothing else changes |
| UseChat.Turn | hooks/useChat.ts:51-193 | a turn keeps the history and adds the user's message; the answer is the placeholder after every event of the response, no longer thinking when the transport delivered and left as the stream left it when it failed; the turn ends on an assistant message that is not thinking, the apology when the transport failed |
| UseChat.TurnOfEncodedStream | hooks/useChat.ts:76-192 | a delivered response that encodes some events leaves as the answer the placeholder after exactly those events, no longer thinking |
| UseChat.TurnToolThenAnswer | hooks/useChat.ts:51-192 | from the response text to the finished turn: a tool start and end followed by tokens give an answer with one complete step labelled by the tool, the tokens' text as content, and no thinking indicator |
| UseChat.TurnChunkingInvariant | hooks/useChat.ts:76-83 | a turn depends on the response text, not on how it was chunked |
| UseChat.TurnFixedChunkingInvariant | hooks/useChat.ts:76-83 | the corrected turn does not depend on the chunking either |
| UseChat.TokensConcatenate | hooks/useChat.ts:104-107 | a run of tokens appends their texts in order, keeps the steps, and stops the thinking indicator once the content is longer than five UTF-16 code units |
| UseChat.EmojiTokenStopsThinking | hooks/useChat.ts:104-106 | a placeholder receiving three emoji stops thinking, the content being six code units long though three characters |
| UseChat.HelloTokens | hooks/useChat.ts:104-106 | the tokens "H", "e", "llo!" give "Hello!", and the message is no longer thinking |
| UseChat.DuplicateToolStart | hooks/useChat.ts:111-122 | a second start with an already started non-empty run id changes nothing |
| UseChat.StartThenEnd | hooks/useChat.ts:109-136 | a start followed by its end leaves exactly one more step, complete, with the output, labelled by the tool |
| UseChat.EndWithoutStart | hooks/useChat.ts:126-136 | an end whose run id no step has leaves the transcript unchanged |
| UseChat.ApplyEventKeepsIdsUnique | hooks/useChat.ts:109-166 | every event keeps the step ids of the open message distinct, given a stamp that makes new ids |
| UseChat.FoldAppend | hooks/useChat.ts:85-170 | applying two runs of events one after the other is applying their concatenation, the second run reading the clock from where the first stopped |
| UseChat.ToolThenAnswer | hooks/useChat.ts:104-136 | after a tool start and end, tokens give an answer with exactly one complete step labelled by the tool, content equal to the tokens' text, thinking until that text is longer than five UTF-16 code units |
| UseChat.FailedTurnKeepsPlaceholder | hooks/useChat.ts:179-192 | on a failed transport the placeholder of the turn is left exactly as the stream left it |
| UseChat.FailedRequestLeavesSpinner | hooks/useChat.ts:179-192 | a request that fails before any text arrives leaves the placeholder thinking after the turn is over |
| UseChat.SettleFrom | hooks/useChat.ts:185-191 | every assistant message from an index on stops thinking, everything else is unchanged |
| UseChat.TurnFixed | hooks/useChat.ts:182-192 | the corrected turn: no assistant message of the turn is left thinking, whatever the transport did; the answer is the placeholder exactly as the stream left it, content and steps included, with only its thinking flag cleared; on failure the apology follows it |
| UseChat.TurnFixedAgreesWhenDelivered | hooks/useChat.ts:182-192 | when the transport did not fail, the corrected turn equals the turn as written |
| PageChat.ResolveApprovals | app/page.tsx:200 | every pending approval step becomes complete, every other step is kept as it is |
| PageChat.ResolveApprovalsSettles | app/page.tsx:199-200 | after resolution no approval is pending, and resolving again changes nothing |
| PageChat.Accepts | app/page.tsx:189 | a submit goes ahead exactly when the input is not all white space and no turn is loading |
| PageChat.Submit | app/page.tsx:187-200 | a blank input or a loading turn changes nothing; otherwise the input is cleared, the turn is loading, the user's text and an empty assistant message are appended and pending approvals are resolved |
| PageChat.OnToken | app/page.tsx:239-263 | the first token of the stream replaces the last message's content, later tokens append to it |
| PageChat.OnToolStart | app/page.tsx:266-281 | the id is the run id or the stamp; a pending step titled "Executing: " and the tool name is appended unless a step already has that id |
| PageChat.OnToolEnd | app/page.tsx:284-289 | with a non-empty run id every step with that id becomes complete with the output as content; otherwise nothing changes |
| PageChat.OnResponse | app/page.tsx:292-314 | the content of a last assistant message is replaced; a text asking for approval appends a pending approval step |
| PageChat.OnError | app/page.tsx:316-325 | one failed error step holding the error text is appended |
| PageChat.Apply | app/page.tsx:238-325 | no event changes the number of messages or their roles; every existing step stays in place with its id, title and kind |
| PageChat.Fold | app/page.tsx:230-332 | the events of the stream keep the number of messages; every step that was there stays in place with its id, title and kind |
| PageChat.TokensConcatenate | app/page.tsx:239-262 | with tokens only, the answer's content is the tokens' text: the first replaces the placeholder, the later ones append |
| PageChat.DuplicateToolStart | app/page.tsx:267-271 | a second start with an already started non-empty run id changes nothing |
| PageChat.StartThenEnd | app/page.tsx:266-288 | a start followed by its end adds exactly one step, complete, titled with the tool name, its content the output |
| PageChat.EndWithoutStart | app/page.tsx:284-288 | an end without a run id, or with one no step has, changes nothing |
| PageChat.ApplyKeepsIdsUnique | app/page.tsx:266-325 | every event keeps the step ids distinct provided an error or approval step's stamp is not an id yet; a tool start needs no fresh stamp, since it checks the id it uses |
| PageChat.FoldKeepsSettled | app/page.tsx:284-288 | no event makes an existing step a pending approval again |
| PageChat.StreamKeepsMessages | app/page.tsx:239-301 | the events touch only the last message, and never its role |
| PageChat.AcceptedStream | app/page.tsx:187-332 | after an accepted submit, the stream keeps the history and the user's text, ends on an assistant message, and leaves no earlier approval pending |
| PageChat.HandleSubmit | app/page.tsx:187-340 | a refused submit changes nothing; an accepted one clears the input, ends not loading, and its messages and steps are those the stream's events made of the submitted state, followed by the apology on failure, with the history and the user's text first and no earlier approval pending |
| PageChat.HandleSubmitOfEncodedStream | app/page.tsx:187-340 | when the response encodes some events, the messages and steps are what exactly those events make of the submitted state, followed by the apology on failure |
| PageChat.TokensAnswer | app/page.tsx:187-340 | a delivered answer of tokens only: the last message is an assistant message holding the tokens' text, the steps are the earlier ones with approvals resolved, and the turn is not loading |
| PageChat.HandleSubmitChunkingInvariant | app/page.tsx:221-228 | a whole submit depends on the response text, not on how it was chunked |
| PageChat.ApprovalResolvedOnNextSubmit | app/page.tsx:304-313 | a response asking for approval adds one pending approval step, and the next accepted submit (line 200) completes it |

## Left out

- The request itself: `fetch`, the API URL, the auth headers, the thread id and the login redirect. A missing response body is a failed transport.
- `TextDecoder`: the chunks are modelled as decoded text. A multi-byte character split across reads is not modelled.
- `JSON.parse` is the parameter `parse`. `Date.now()` and `Math.random()` are the parameter `clock`. The steps' `timestamp` fields are not modelled.
- ChatTypes.Decode: drops a `token` or `response` payload without a `content` string and a `tool_start` payload without a `name` string, in both versions. The source does not drop them, and the two versions differ. In hooks/useChat.ts a `token` appends the text "undefined" (line 105). A `tool_start` throws inside the state updater, in `getFriendlyName` (lines 8 and 115), and so does a `response`, at `includes` (lines 139-140). In app/page.tsx the first `token` sets the content to the value `undefined`, and later ones append the text "undefined" (lines 247 and 257). A `tool_start` gets the title "Executing: undefined" and does not throw (lines 267-276). A `response` queues an update that sets the content to `undefined` and marks the first token as received (lines 293-302). It then throws at `includes` (line 304), outside any updater, and the frame's `catch` swallows it (lines 327-329). These paths depend on JavaScript's `undefined`, which the typed payload does not carry.
- Lone surrogates: a Dafny `char` is a Unicode scalar value, so a text holding half of a surrogate pair, which a JavaScript string can, is not modelled.
- Step contents other than text: `content` is `any` in the source, and the model keeps strings only.
- The hook's `isLoading` flag is not modelled: nothing in the hook reads it.
- React scheduling: the updaters are applied in the order they are queued. The page's in-place mutation at app/page.tsx:298 is modelled as a replacement of the last message's content.
- PageChat.OnResponse: an empty message list is left unchanged; the source would throw there. That state cannot occur after a submit.
- PageChat.HandleSubmit: the input stays empty while the turn streams; typing during the stream is not modelled.
- Rendering (`MessageBubble`, `StepItem`, `ThoughtProcess`), logout, the dashboard and the cards are not part of this model.

## Findings

| source | as written | input that shows it | evidently intended | confidence | as-written member | corrected member |
|---|---|---|---|---|---|---|
| hooks/useChat.ts:182-192 | the `finally` block stops the thinking indicator of the last message only | a request that fails before any text arrives: the apology becomes the last message, and the placeholder before it keeps `isThinking: true` | no assistant message of the turn keeps thinking once the turn is over | medium, not executed | UseChat.FailedRequestLeavesSpinner | UseChat.TurnFixed |

=== FILE: framing.dfy ===
/** The framing loop shared by both versions of the chat engine (hooks/useChat.ts and
    app/page.tsx): text chunks are appended to a buffer, the buffer is split on blank lines,
    the last piece is held back, and only `data: ` frames yield a payload. This is a small
    subset of the event-stream format of section 9.2 (Server-sent events) of the WHATWG HTML
    Living Standard: no CR handling, no multi-line data, no event/id/retry fields. */
module Framing {
  import opened Strings
  import opened ChatTypes

  /** What the network delivered for one request: the text chunks read, in order, and whether
      the request or a later read failed after them (a failed request has no chunks). */
  datatype Transport = Transport(chunks: seq<string>, failed: bool)

  /** The state of the reading loop: the frames split off so far and the held-back text. */
  datatype Reader = Reader(frames: seq<string>, buffer: string)

  /** All chunks read so far, in order. */
  function Concat(chunks: seq<string>): string
    decreases |chunks|
  {
    if |chunks| == 0 then "" else Concat(AllButLast(chunks)) + Last(chunks)
  }

  /** One read: the chunk is appended to the buffer, the buffer is split on blank lines, its
      last piece becomes the new buffer, and the pieces before it are the frames to handle.
      Nothing is lost or invented: the new frames and the new buffer join back to the old
      buffer followed by the chunk, and the held-back buffer never contains a whole
      delimiter. */
  function Feed(r: Reader, chunk: string): (r': Reader)
    ensures |r'.frames| >= |r.frames| && r'.frames[..|r.frames|] == r.frames
    ensures Join(r'.frames[|r.frames|..] + [r'.buffer]) == r.buffer + chunk
    ensures !Contains(r'.buffer, Delim)
  {
    var lines := Split(r.buffer + chunk);
    JoinSplit(r.buffer + chunk);
    SplitPiecesHaveNoDelim(r.buffer + chunk);
    assert lines == AllButLast(lines) + [Last(lines)];
    var r' := Reader(r.frames + AllButLast(lines), Last(lines));
    assert r'.frames[|r.frames|..] == AllButLast(lines);
    r'
  }

  /** The reader after every chunk has been fed, starting from an empty buffer. The buffer
      never holds a blank line, and nothing is held back before the first chunk. */
  function Read(chunks: seq<string>): (r: Reader)
    ensures !Contains(r.buffer, Delim)
    ensures |chunks| == 0 ==> r == Reader([], "")
    decreases |chunks|
  {
    if |chunks| == 0 then Reader([], "") else Feed(Read(AllButLast(chunks)), Last(chunks))
  }

  /** However the text is cut into chunks, the frames handled are the complete pieces of the
      whole text split on blank lines, and what remains buffered is its last piece. */
  lemma {:induction false} ReadIsSplitOfConcat(chunks: seq<string>)
    ensures Read(chunks).frames == AllButLast(Split(Concat(chunks)))
    ensures Read(chunks).buffer == Last(Split(Concat(chunks)))
    decreases |chunks|
  {
    if |chunks| > 0 {
      var init := AllButLast(chunks);
      ReadIsSplitOfConcat(init);
      SplitAppend(Concat(init), Last(chunks));
      SplitPiecesAppend(Split(Concat(chunks)), Split(Concat(init)), Split(Read(init).buffer + Last(chunks)));
    }
  }

  /** The pieces of `before` with its last one replaced by the pieces of `tail`: the complete
      pieces are those of `before` followed by those of `tail`, the last is the last of `tail`. */
  lemma SplitPiecesAppend(whole: seq<string>, before: seq<string>, tail: seq<string>)
    requires |before| >= 1 && |tail| >= 1 && whole == AllButLast(before) + tail
    ensures AllButLast(whole) == AllButLast(before) + AllButLast(tail)
    ensures Last(whole) == Last(tail)
  {
  }

  /** Framing does not depend on how the text was chunked. */
  lemma ChunkingInvariant(c1: seq<string>, c2: seq<string>)
    requires Concat(c1) == Concat(c2)
    ensures Read(c1) == Read(c2)
  {
    ReadIsSplitOfConcat(c1);
    ReadIsSplitOfConcat(c2);
  }

  /** A text with no blank line is a single piece. */
  lemma SplitNoDelim(s: string)
    requires !Contains(s, Delim)
    ensures Split(s) == [s]
  {
    SplitPiecesHaveNoDelim(s);
    JoinSplit(s);
    if |Split(s)| > 1 {
      var r := Split(s);
      assert s == r[0] + (Delim + Join(r[1..]));
      assert OccursAt(s, Delim, |r[0]|);
      assert false;
    }
  }

  /** A frame body that can be delimited unambiguously: it holds no blank line and does not
      end in a newline (which would merge with the delimiter after it). */
  predicate WellFormedFrame(f: string) {
    !Contains(f, Delim) && (|f| == 0 || f[|f| - 1] != '\n')
  }

  /** A well-formed frame followed by a delimiter is split off as one piece. */
  lemma {:induction false} SplitFrameThenRest(f: string, rest: string)
    requires WellFormedFrame(f)
    ensures Split(f + Delim + rest) == [f] + Split(rest)
    decreases |f|
  {
    if |f| == 0 {
      assert f + Delim + rest == Delim + rest;
      SplitAtDelim(Delim + rest);
      assert (Delim + rest)[2..] == rest;
    } else {
      var s := f + Delim + rest;
      var f' := f[1..];
      assert !Contains(f', Delim) by {
        if Contains(f', Delim) {
          var i :| 0 <= i <= |f'| && OccursAt(f', Delim, i);
          assert f[i + 1..i + 3] == f'[i..i + 2];
          assert OccursAt(f, Delim, i + 1);
          assert false;
        }
      }
      assert WellFormedFrame(f') by {
        if |f'| > 0 {
          assert f'[|f'| - 1] == f[|f| - 1];
        }
      }
      assert s[..2] != Delim by {
        if |f| >= 2 {
          assert s[..2] == f[..2];
          assert !OccursAt(f, Delim, 0);
        } else {
          assert s[1] == '\n' && s[0] == f[0];
        }
      }
      SplitAtChar(s);
      assert s[1..] == f' + Delim + rest;
      SplitFrameThenRest(f', rest);
      assert [s[0]] + f' == f;
    }
  }

  /** Text made of N well-formed frames, each closed by a blank line, followed by a tail
      without a blank line yields exactly those N frames, in order, whatever the chunking;
      the tail stays in the buffer and is dropped when the stream ends. */
  lemma {:induction false} CompleteFramesThenTail(chunks: seq<string>, fs: seq<string>, tail: string)
    requires forall k :: 0 <= k < |fs| ==> WellFormedFrame(fs[k])
    requires !Contains(tail, Delim)
    requires Concat(chunks) == Join(fs + [tail])
    ensures Read(chunks).frames == fs
    ensures Read(chunks).buffer == tail
  {
    ReadIsSplitOfConcat(chunks);
    SplitOfJoin(fs, tail);
  }

  lemma {:induction false} SplitOfJoin(fs: seq<string>, tail: string)
    requires forall k :: 0 <= k < |fs| ==> WellFormedFrame(fs[k])
    requires !Contains(tail, Delim)
    ensures Split(Join(fs + [tail])) == fs + [tail]
    decreases |fs|
  {
    if |fs| == 0 {
      assert fs + [tail] == [tail];
      SplitNoDelim(tail);
    } else {
      assert (fs + [tail])[1..] == fs[1..] + [tail];
      SplitOfJoin(fs[1..], tail);
      SplitFrameThenRest(fs[0], Join(fs[1..] + [tail]));
      assert fs + [tail] == [fs[0]] + (fs[1..] + [tail]);
    }
  }

  /** The literal prefix of the frames that carry a payload. */
  const DataPrefix: string := "data: "

  /** The payload of a frame: the text after the `data: ` prefix, present exactly when the
      frame starts with the prefix and some text follows it. */
  function DataOf(frame: string): (r: Option<string>)
    ensures r.Some? <==> StartsWith(frame, DataPrefix) && |frame| > |DataPrefix|
    ensures r.Some? ==> frame == DataPrefix + r.value && r.value != ""
  {
    if StartsWith(frame, DataPrefix) && frame[6..] != "" then Some(frame[6..]) else None
  }

  /** The event one frame produces: none when it carries no payload, when the payload does
      not parse or when its `type` is not handled. */
  function EventOf(frame: string, parse: string -> Option<Payload>): (r: seq<Event>)
    ensures |r| <= 1
    ensures |r| == 1 ==> DataOf(frame).Some? && parse(DataOf(frame).value).Some?
  {
    match DataOf(frame)
    case None => []
    case Some(data) =>
      match parse(data)
      case None => []
      case Some(p) =>
        match Decode(p)
        case None => []
        case Some(e) => [e]
  }

  /** The events of a sequence of frames, in frame order. */
  function EventsOf(frames: seq<string>, parse: string -> Option<Payload>): (r: seq<Event>)
    ensures |r| <= |frames|
    decreases |frames|
  {
    if |frames| == 0 then [] else EventsOf(AllButLast(frames), parse) + EventOf(Last(frames), parse)
  }

  lemma {:induction false} EventsOfAppend(a: seq<string>, b: seq<string>, parse: string -> Option<Payload>)
    ensures EventsOf(a + b, parse) == EventsOf(a, parse) + EventsOf(b, parse)
    decreases |b|
  {
    if |b| > 0 {
      assert AllButLast(a + b) == a + AllButLast(b);
      assert Last(a + b) == Last(b);
      EventsOfAppend(a, AllButLast(b), parse);
    } else {
      assert a + b == a;
    }
  }

  /** The frames a backend writes for a list of payload texts. */
  function DataFrames(ds: seq<string>): (r: seq<string>)
    ensures |r| == |ds| && forall k :: 0 <= k < |ds| ==> r[k] == DataPrefix + ds[k]
  {
    seq(|ds|, k requires 0 <= k < |ds| => DataPrefix + ds[k])
  }

  /** A `data: ` frame gives back its payload text. */
  lemma DataOfFrame(d: string)
    requires d != ""
    ensures DataOf(DataPrefix + d) == Some(d)
  {
    assert (DataPrefix + d)[..6] == DataPrefix;
    assert (DataPrefix + d)[6..] == d;
  }

  /** Frames carrying the payloads of a list of events, each payload text parsing to a payload
      that decodes to its event (whatever other fields it has), give back exactly those
      events. */
  lemma {:induction false} EventsOfDataFrames(ds: seq<string>, es: seq<Event>,
                                              parse: string -> Option<Payload>)
    requires |ds| == |es|
    requires forall k :: 0 <= k < |ds| ==>
      ds[k] != "" && parse(ds[k]).Some? && Decode(parse(ds[k]).value) == Some(es[k])
    ensures EventsOf(DataFrames(ds), parse) == es
    decreases |ds|
  {
    if |ds| > 0 {
      var n := |ds| - 1;
      assert AllButLast(DataFrames(ds)) == DataFrames(ds[..n]);
      EventsOfDataFrames(ds[..n], es[..n], parse);
      DataOfFrame(ds[n]);
      assert EventOf(Last(DataFrames(ds)), parse) == [es[n]];
      assert es == es[..n] + [es[n]];
    }
  }

  /** The chunks read carry the events `es`: their text is the `data: ` frames of the payload
      texts `ds`, each closed by a blank line and followed by an unterminated tail, and each
      payload text parses to a payload that decodes to its event. */
  predicate Encodes(chunks: seq<string>, es: seq<Event>, parse: string -> Option<Payload>,
                    ds: seq<string>, tail: string)
  {
    && |ds| == |es|
    && (forall k :: 0 <= k < |ds| ==>
          && ds[k] != "" && WellFormedFrame(DataPrefix + ds[k])
          && parse(ds[k]).Some? && Decode(parse(ds[k]).value) == Some(es[k]))
    && !Contains(tail, Delim)
    && Concat(chunks) == Join(DataFrames(ds) + [tail])
  }

  /** The whole stream, end to end: a response text that encodes some events yields exactly
      those events in order, however it was chunked. */
  lemma EncodedStream(chunks: seq<string>, ds: seq<string>, es: seq<Event>, tail: string,
                      parse: string -> Option<Payload>)
    requires Encodes(chunks, es, parse, ds, tail)
    ensures EventsOf(Read(chunks).frames, parse) == es
  {
    CompleteFramesThenTail(chunks, DataFrames(ds), tail);
    EventsOfDataFrames(ds, es, parse);
  }

  /** The inner loop over the complete frames of one read, in order. */
  method HandleFrames(frames: seq<string>, parse: string -> Option<Payload>) returns (events: seq<Event>)
    ensures events == EventsOf(frames, parse)
  {
    events := [];
    var k := 0;
    while k < |frames|
      invariant 0 <= k <= |frames|
      invariant events == EventsOf(frames[..k], parse)
    {
      assert AllButLast(frames[..k + 1]) == frames[..k];
      var line := frames[k];
      if StartsWith(line, DataPrefix) {
        var dataStr := line[6..];
        if dataStr != "" {
          var parsed := parse(dataStr);
          if parsed.Some? {
            var e := Decode(parsed.value);
            if e.Some? {
              events := events + [e.value];
            }
          }
        }
      }
      k := k + 1;
    }
    assert frames[..k] == frames;
  }

  /** One more chunk read, over the text read so far: the held-back piece becomes the last
      piece of the old one followed by the chunk, and the events grow by those of the pieces
      before it. */
  lemma ReadStep(chunks: seq<string>, n: nat, parse: string -> Option<Payload>)
    requires n < |chunks|
    ensures var pieces := Split(Concat(chunks[..n]));
      var lines := Split(Last(pieces) + chunks[n]);
      && Last(Split(Concat(chunks[..n + 1]))) == Last(lines)
      && EventsOf(AllButLast(Split(Concat(chunks[..n + 1]))), parse)
         == EventsOf(AllButLast(pieces), parse) + EventsOf(AllButLast(lines), parse)
  {
    assert AllButLast(chunks[..n + 1]) == chunks[..n];
    ReadIsSplitOfConcat(chunks[..n]);
    ReadIsSplitOfConcat(chunks[..n + 1]);
    var before := Read(chunks[..n]);
    EventsOfAppend(before.frames, AllButLast(Split(before.buffer + chunks[n])), parse);
  }

  /** The body of the reading loop: the chunk is appended to the buffer, the complete frames
      are handled in order, and the last piece is kept as the new buffer. */
  method ReadChunk(buffer: string, chunk: string, parse: string -> Option<Payload>)
    returns (buffer': string, events: seq<Event>)
    ensures buffer' == Last(Split(buffer + chunk))
    ensures events == EventsOf(AllButLast(Split(buffer + chunk)), parse)
  {
    var lines := Split(buffer + chunk);
    buffer' := lines[|lines| - 1];
    events := HandleFrames(lines[..|lines| - 1], parse);
  }

  /** The reading loop of both versions: for each chunk, feed the buffer and handle the
      complete frames in order. Its events are those of the complete frames of the whole
      text, the held-back tail never producing one. */
  method ReadStream(chunks: seq<string>, parse: string -> Option<Payload>) returns (events: seq<Event>)
    ensures events == EventsOf(AllButLast(Split(Concat(chunks))), parse)
  {
    var buffer := "";
    events := [];
    var n := 0;
    while n < |chunks|
      invariant 0 <= n <= |chunks|
      invariant buffer == Last(Split(Concat(chunks[..n])))
      invariant events == EventsOf(AllButLast(Split(Concat(chunks[..n]))), parse)
    {
      ReadStep(chunks, n, parse);
      var handled;
      buffer, handled := ReadChunk(buffer, chunks[n], parse);
      events := events + handled;
      n := n + 1;
    }
    assert chunks[..|chunks|] == chunks;
  }
}

=== FILE: friendly.dfy ===
/** `getFriendlyName` of hooks/useChat.ts: the label shown for a tool call, chosen by the
    first rule whose text the tool name contains. */
module FriendlyNames {
  import opened Strings

  /** The rules in the order they are tried: a text the tool name may contain, and its label. */
  const Rules: seq<(string, string)> := [
    ("get_employee", "Retrieving employee details..."),
    ("list_employees", "Listing employees..."),
    ("create_employee", "Creating employee record..."),
    ("update_employee", "Updating employee details..."),
    ("delete_employee", "Deleting employee record..."),
    ("apply_leave", "Processing leave application..."),
    ("approve_leave", "Approving leave request..."),
    ("reject_leave", "Rejecting leave request..."),
    ("list_leaves", "Retrieving leave requests..."),
    ("get_leave", "Checking leave status...")
  ]

  /** The label of a tool name that matches no rule. */
  const DefaultLabel: string := "Processing request..."

  /** Rule `k` is the first rule whose text occurs in `name`. */
  predicate FirstMatchAt(name: string, k: int) {
    0 <= k < |Rules| && Contains(name, Rules[k].0)
    && forall j :: 0 <= j < k ==> !Contains(name, Rules[j].0)
  }

  /** No rule's text occurs in `name`. */
  predicate NoRuleMatches(name: string) {
    forall k :: 0 <= k < |Rules| ==> !Contains(name, Rules[k].0)
  }

  /** The label of the first matching rule, or the default label when none matches. */
  function FriendlyName(toolName: string): (r: string)
    ensures forall k :: FirstMatchAt(toolName, k) ==> r == Rules[k].1
    ensures NoRuleMatches(toolName) ==> r == DefaultLabel
  {
    assert Rules[0].0 == "get_employee" && Rules[1].0 == "list_employees"
      && Rules[2].0 == "create_employee" && Rules[3].0 == "update_employee"
      && Rules[4].0 == "delete_employee" && Rules[5].0 == "apply_leave"
      && Rules[6].0 == "approve_leave" && Rules[7].0 == "reject_leave"
      && Rules[8].0 == "list_leaves" && Rules[9].0 == "get_leave";
    if Contains(toolName, "get_employee") then "Retrieving employee details..."
    else if Contains(toolName, "list_employees") then "Listing employees..."
    else if Contains(toolName, "create_employee") then "Creating employee record..."
    else if Contains(toolName, "update_employee") then "Updating employee details..."
    else if Contains(toolName, "delete_employee") then "Deleting employee record..."
    else if Contains(toolName, "apply_leave") then "Processing leave application..."
    else if Contains(toolName, "approve_leave") then "Approving leave request..."
    else if Contains(toolName, "reject_leave") then "Rejecting leave request..."
    else if Contains(toolName, "list_leaves") then "Retrieving leave requests..."
    else if Contains(toolName, "get_leave") then "Checking leave status..."
    else DefaultLabel
  }

  /** Every name either has a first matching rule or matches none. */
  lemma FirstMatchOrNone(name: string)
    ensures NoRuleMatches(name) || exists k :: FirstMatchAt(name, k)
  {
    if !NoRuleMatches(name) {
      var k :| 0 <= k < |Rules| && Contains(name, Rules[k].0);
      var j := 0;
      while !Contains(name, Rules[j].0)
        invariant 0 <= j <= k
        invariant forall i :: 0 <= i < j ==> !Contains(name, Rules[i].0)
        decreases k - j
      {
        j := j + 1;
      }
      assert FirstMatchAt(name, j);
    }
  }

  /** The default label is given exactly to the names that match no rule: no rule's label
      equals it. */
  lemma DefaultIffNoMatch(name: string)
    ensures FriendlyName(name) == DefaultLabel <==> NoRuleMatches(name)
  {
    FirstMatchOrNone(name);
  }

  /** A name containing `get_employee` is labelled by that rule, whatever else it contains. */
  lemma GetEmployeeFirst(name: string)
    requires Contains(name, "get_employee")
    ensures FriendlyName(name) == "Retrieving employee details..."
  {
    assert FirstMatchAt(name, 0);
  }

  /** `list_leaves` is tried before `get_leave`: a name containing both, and no earlier rule,
      is labelled as a listing of leave requests. */
  lemma ListLeavesBeforeGetLeave(name: string)
    requires Contains(name, "list_leaves") && Contains(name, "get_leave")
    requires forall j :: 0 <= j < 8 ==> !Contains(name, Rules[j].0)
    ensures FriendlyName(name) == "Retrieving leave requests..."
  {
    assert FirstMatchAt(name, 8);
  }

  /** A text lacking one of the characters of `sub` does not contain `sub`. */
  lemma NotContainsByChar(s: string, sub: string, k: nat)
    requires k < |sub| && forall i :: 0 <= i < |s| ==> s[i] != sub[k]
    ensures !Contains(s, sub)
  {
    forall i | 0 <= i <= |s|
      ensures !OccursAt(s, sub, i)
    {
      if i + |sub| <= |s| {
        assert s[i..i + |sub|][k] == s[i + k];
      }
    }
  }

  /** The tool of a listing request is labelled by the second rule. */
  lemma ListEmployeesLabel()
    ensures FriendlyName("list_employees_tool") == "Listing employees..."
  {
    var name := "list_employees_tool";
    NotContainsByChar(name, "get_employee", 0);
    assert OccursAt(name, "list_employees", 0);
    assert FirstMatchAt(name, 1);
  }
}

=== FILE: page_chat.dfy ===
/** The older chat engine, app/page.tsx: the messages hold text only, and the steps of the
    agent form one list for the whole conversation, kept apart from the messages. */
module PageChat {
  import opened Strings
  import opened ChatTypes
  import opened Framing

  /** The page's own message type: a role and a text. */
  datatype PageMessage = PageMessage(role: Role, content: string)

  /** The page's own step type: no tool name, and a tool's output replaces `content`. */
  datatype PageStep = PageStep(
    id: string,
    title: string,
    kind: StepKind,
    content: Option<string>,
    status: Status)

  /** The component state the engine touches: the input box, the messages, the global steps
      and the loading flag. */
  datatype PageState = PageState(
    input: string,
    messages: seq<PageMessage>,
    steps: seq<PageStep>,
    isLoading: bool)

  /** The state of one stream: messages, steps, and whether a token or a response has been
      seen in it (`firstTokenReceived`). */
  datatype Stream = Stream(messages: seq<PageMessage>, steps: seq<PageStep>, firstToken: bool)

  predicate PendingApproval(s: PageStep) {
    s.kind == Approval && s.status == Pending
  }

  /** The ids of the steps, in order. */
  function StepIds(steps: seq<PageStep>): (r: seq<string>)
    ensures |r| == |steps| && forall k :: 0 <= k < |steps| ==> r[k] == steps[k].id
  {
    seq(|steps|, k requires 0 <= k < |steps| => steps[k].id)
  }

  /** Step `n` is step `o` with at most its status and content changed. */
  predicate SameStep(n: PageStep, o: PageStep) {
    n.id == o.id && n.title == o.title && n.kind == o.kind
  }

  /** Every pending approval step becomes complete; every other step is kept. */
  function ResolveApprovals(steps: seq<PageStep>): (r: seq<PageStep>)
    ensures |r| == |steps|
    ensures forall i :: 0 <= i < |steps| && PendingApproval(steps[i]) ==> r[i] == steps[i].(status := Complete)
    ensures forall i :: 0 <= i < |steps| && !PendingApproval(steps[i]) ==> r[i] == steps[i]
  {
    seq(|steps|, i requires 0 <= i < |steps| =>
      if PendingApproval(steps[i]) then steps[i].(status := Complete) else steps[i])
  }

  /** After resolution no approval is pending, and resolving again changes nothing. */
  lemma ResolveApprovalsSettles(steps: seq<PageStep>)
    ensures forall i :: 0 <= i < |steps| ==> !PendingApproval(ResolveApprovals(steps)[i])
    ensures ResolveApprovals(ResolveApprovals(steps)) == ResolveApprovals(steps)
  {
    var r := ResolveApprovals(steps);
    assert forall i :: 0 <= i < |r| ==> !PendingApproval(r[i]);
  }

  /** The guard of `handleSubmit`: `!input.trim() || isLoading` rejects the submit, so a
      submit goes ahead exactly when the input is not all white space and no turn is loading. */
  predicate Accepts(s: PageState): (b: bool)
    ensures b <==> !Blank(s.input) && !s.isLoading
  {
    TrimEmptyIffBlank(s.input);
    Trim(s.input) != "" && !s.isLoading
  }

  /** The synchronous part of `handleSubmit`. A whitespace-only input, or a turn still loading,
      changes nothing. Otherwise the input is cleared, the turn is loading, the user's text and
      an empty assistant placeholder are appended, and every pending approval is resolved. */
  function Submit(s: PageState): (r: PageState)
    ensures Blank(s.input) || s.isLoading ==> r == s
    ensures !Blank(s.input) && !s.isLoading ==>
      && r.input == "" && r.isLoading
      && r.messages == s.messages + [PageMessage(User, s.input), PageMessage(Assistant, "")]
      && |r.steps| == |s.steps|
      && forall i :: 0 <= i < |s.steps| ==>
           r.steps[i] == (if PendingApproval(s.steps[i]) then s.steps[i].(status := Complete) else s.steps[i])
  {
    TrimEmptyIffBlank(s.input);
    if !Accepts(s) then s
    else PageState("", s.messages + [PageMessage(User, s.input), PageMessage(Assistant, "")],
                   ResolveApprovals(s.steps), true)
  }

  /** A `token` event: the first one of the stream replaces the last message's content, later
      ones append to it; the message's role is not checked. */
  function OnToken(st: Stream, text: string): (r: Stream)
    ensures r.firstToken && r.steps == st.steps && |r.messages| == |st.messages|
    ensures |st.messages| > 0 ==>
      && r.messages[..|st.messages| - 1] == st.messages[..|st.messages| - 1]
      && Last(r.messages).role == Last(st.messages).role
      && Last(r.messages).content == (if st.firstToken then Last(st.messages).content + text else text)
  {
    var msgs := st.messages;
    if |msgs| == 0 then st.(firstToken := true)
    else
      var last := Last(msgs);
      var content := if st.firstToken then last.content + text else text;
      Stream(AllButLast(msgs) + [last.(content := content)], st.steps, true)
  }

  /** A `tool_start` event: the step id is the run id, or the stamp when there is none; if a
      step already has that id nothing changes, otherwise a pending tool step titled with the
      tool name is appended. */
  function OnToolStart(st: Stream, runId: Option<string>, name: string, input: Option<string>,
                       stamp: string): (r: Stream)
    ensures r.messages == st.messages && r.firstToken == st.firstToken
    ensures IdOr(runId, stamp) in StepIds(st.steps) ==> r.steps == st.steps
    ensures IdOr(runId, stamp) !in StepIds(st.steps) ==>
      r.steps == st.steps + [PageStep(IdOr(runId, stamp), "Executing: " + name, ToolCall, input, Pending)]
  {
    var id := IdOr(runId, stamp);
    if id in StepIds(st.steps) then st
    else st.(steps := st.steps + [PageStep(id, "Executing: " + name, ToolCall, input, Pending)])
  }

  /** A `tool_end` event with a non-empty run id: every step with that id becomes complete with
      the output as its content; the others are kept. Without a run id nothing changes. */
  function OnToolEnd(st: Stream, runId: Option<string>, output: Option<string>): (r: Stream)
    ensures r.messages == st.messages && r.firstToken == st.firstToken && |r.steps| == |st.steps|
    ensures runId == None || runId == Some("") ==> r.steps == st.steps
    ensures runId.Some? && runId.value != "" ==>
      forall i :: 0 <= i < |st.steps| ==>
        r.steps[i] == (if st.steps[i].id == runId.value
                       then st.steps[i].(status := Complete, content := output) else st.steps[i])
  {
    if runId.Some? && runId.value != "" then
      var id := runId.value;
      st.(steps := seq(|st.steps|, i requires 0 <= i < |st.steps| =>
        if st.steps[i].id == id then st.steps[i].(status := Complete, content := output) else st.steps[i]))
    else st
  }

  /** A `response` event: the last message's content is replaced when it is an assistant
      message; later tokens append to it; a response asking for approval appends a pending
      approval step. */
  function OnResponse(st: Stream, text: string, stamp: string): (r: Stream)
    ensures r.firstToken && |r.messages| == |st.messages|
    ensures |st.messages| > 0 && Last(st.messages).role == Assistant ==>
      r.messages == AllButLast(st.messages) + [PageMessage(Assistant, text)]
    ensures !(|st.messages| > 0 && Last(st.messages).role == Assistant) ==> r.messages == st.messages
    ensures Contains(text, ApprovalMarker) ==>
      r.steps == st.steps + [PageStep("approval-" + stamp, "Approval Required", Approval, None, Pending)]
    ensures !Contains(text, ApprovalMarker) ==> r.steps == st.steps
  {
    var msgs := st.messages;
    var msgs' := if |msgs| > 0 && Last(msgs).role == Assistant
                 then AllButLast(msgs) + [Last(msgs).(content := text)] else msgs;
    var steps' := if Contains(text, ApprovalMarker)
                  then st.steps + [PageStep("approval-" + stamp, "Approval Required", Approval, None, Pending)]
                  else st.steps;
    Stream(msgs', steps', true)
  }

  /** An `error` event: one failed error step is appended. */
  function OnError(st: Stream, detail: Option<string>, stamp: string): (r: Stream)
    ensures r.messages == st.messages && r.firstToken == st.firstToken
    ensures r.steps == st.steps + [PageStep(stamp, "Error", ErrorKind, detail, Failed)]
  {
    st.(steps := st.steps + [PageStep(stamp, "Error", ErrorKind, detail, Failed)])
  }

  /** One event of the stream; no event changes the number of messages or removes a step, and
      an existing step keeps its id, title and kind. */
  function Apply(st: Stream, e: Event, stamp: string): (r: Stream)
    ensures |r.messages| == |st.messages| && |r.steps| >= |st.steps|
    ensures forall i :: 0 <= i < |st.messages| ==> r.messages[i].role == st.messages[i].role
    ensures forall i :: 0 <= i < |st.steps| ==> SameStep(r.steps[i], st.steps[i])
  {
    match e
    case Token(text) => OnToken(st, text)
    case ToolStart(runId, name, input) => OnToolStart(st, runId, name, input, stamp)
    case ToolEnd(runId, output) => OnToolEnd(st, runId, output)
    case Response(text) => OnResponse(st, text, stamp)
    case Error(detail) => OnError(st, detail, stamp)
  }

  /** The events of a stream applied in order; event `k` gets the stamp `clock(k)`. Every step
      that was there stays in place with its id, title and kind. */
  function Fold(st: Stream, events: seq<Event>, clock: nat -> string): (r: Stream)
    ensures |r.messages| == |st.messages| && |r.steps| >= |st.steps|
    ensures forall i :: 0 <= i < |st.steps| ==> SameStep(r.steps[i], st.steps[i])
    decreases |events|
  {
    if |events| == 0 then st
    else Apply(Fold(st, AllButLast(events), clock), Last(events), clock(|events| - 1))
  }

  /** With only token events, the last message's content is the tokens' text: the first token
      replaces the placeholder and the later ones append. Once a token or a response has been
      seen, the tokens append to what is there. */
  lemma {:induction false} TokensConcatenate(st: Stream, texts: seq<string>, clock: nat -> string)
    requires |st.messages| > 0 && |texts| > 0
    ensures var r := Fold(st, Tokens(texts), clock);
      && r.firstToken && r.steps == st.steps
      && Last(r.messages).content == (if st.firstToken then Last(st.messages).content else "") + Concat(texts)
    decreases |texts|
  {
    var init := AllButLast(texts);
    var prev := Fold(st, Tokens(init), clock);
    var r := Fold(st, Tokens(texts), clock);
    FoldLastToken(st, texts, clock);
    var before := if st.firstToken then Last(st.messages).content else "";
    var t := Last(texts);
    assert |prev.messages| > 0;
    if |init| == 0 {
      assert Concat(texts) == t;
      assert Last(r.messages).content == before + t;
    } else {
      TokensConcatenate(st, init, clock);
      var c := Concat(init);
      assert Last(prev.messages).content == before + c && prev.firstToken;
      assert Last(r.messages).content == (before + c) + t;
      assert Concat(texts) == c + t;
      AppendAssoc(before, c, t);
    }
  }


  /** The last of a run of tokens is applied to the stream the earlier ones left. */
  lemma FoldLastToken(st: Stream, texts: seq<string>, clock: nat -> string)
    requires |texts| > 0
    ensures Fold(st, Tokens(texts), clock) == OnToken(Fold(st, Tokens(AllButLast(texts)), clock), Last(texts))
    ensures |texts| == 1 ==> Fold(st, Tokens(AllButLast(texts)), clock) == st
  {
    assert AllButLast(Tokens(texts)) == Tokens(AllButLast(texts));
    assert Last(Tokens(texts)) == Token(Last(texts));
  }

  /** Starting a run id already started changes nothing. */
  lemma DuplicateToolStart(st: Stream, id: string, name: string, input: Option<string>,
                           name': string, input': Option<string>, s1: string, s2: string)
    requires id != ""
    ensures var once := Apply(st, ToolStart(Some(id), name, input), s1);
      Apply(once, ToolStart(Some(id), name', input'), s2) == once
  {
    var once := Apply(st, ToolStart(Some(id), name, input), s1);
    if id !in StepIds(st.steps) {
      assert once.steps[|once.steps| - 1].id == id;
    }
  }

  /** A start followed by its end leaves one more step: complete, titled with the tool name,
      the output replacing the input as its content. */
  lemma StartThenEnd(st: Stream, id: string, name: string, input: Option<string>,
                     output: Option<string>, s1: string, s2: string)
    requires id != "" && id !in StepIds(st.steps)
    ensures var r := Apply(Apply(st, ToolStart(Some(id), name, input), s1), ToolEnd(Some(id), output), s2);
      && r.messages == st.messages
      && r.steps == st.steps + [PageStep(id, "Executing: " + name, ToolCall, output, Complete)]
  {
    var once := Apply(st, ToolStart(Some(id), name, input), s1);
    assert once.steps == st.steps + [PageStep(id, "Executing: " + name, ToolCall, input, Pending)];
    var r := Apply(once, ToolEnd(Some(id), output), s2);
    forall i | 0 <= i < |st.steps|
      ensures r.steps[i] == st.steps[i]
    {
      assert once.steps[i] == st.steps[i];
    }
  }

  /** A tool end for a run id no step has leaves the stream as it was. */
  lemma EndWithoutStart(st: Stream, runId: Option<string>, output: Option<string>, stamp: string)
    requires runId == None || runId.value !in StepIds(st.steps)
    ensures Apply(st, ToolEnd(runId, output), stamp) == st
  {
    var r := Apply(st, ToolEnd(runId, output), stamp);
    assert r.steps == st.steps;
  }

  /** Appending a step whose id is new keeps the ids distinct. */
  lemma AppendPageStepKeepsDistinct(steps: seq<PageStep>, s: PageStep)
    requires Distinct(StepIds(steps)) && s.id !in StepIds(steps)
    ensures Distinct(StepIds(steps + [s]))
  {
    assert StepIds(steps + [s]) == StepIds(steps) + [s.id];
    AppendKeepsDistinct(StepIds(steps), s.id);
  }

  /** Every event keeps the step ids distinct, given a stamp that is not an id yet (nor
      prefixed by "approval-" one). A tool start needs no such stamp: it checks the id it is
      about to use. */
  lemma ApplyKeepsIdsUnique(st: Stream, e: Event, stamp: string)
    requires Distinct(StepIds(st.steps))
    requires e.Error? ==> stamp !in StepIds(st.steps)
    requires e.Response? ==> "approval-" + stamp !in StepIds(st.steps)
    ensures Distinct(StepIds(Apply(st, e, stamp).steps))
  {
    match e
    case ToolStart(runId, name, input) =>
      var id := IdOr(runId, stamp);
      if id !in StepIds(st.steps) {
        AppendPageStepKeepsDistinct(st.steps, PageStep(id, "Executing: " + name, ToolCall, input, Pending));
      }
    case ToolEnd(runId, output) =>
      var r := Apply(st, e, stamp).steps;
      assert StepIds(r) == StepIds(st.steps);
    case Response(text) =>
      if Contains(text, ApprovalMarker) {
        var step := PageStep("approval-" + stamp, "Approval Required", Approval, None, Pending);
        AppendPageStepKeepsDistinct(st.steps, step);
      }
    case Error(detail) =>
      AppendPageStepKeepsDistinct(st.steps, PageStep(stamp, "Error", ErrorKind, detail, Failed));
    case Token(_) =>
  }

  /** No step among the first `n` is a pending approval. */
  predicate SettledBelow(steps: seq<PageStep>, n: nat) {
    n <= |steps| && forall i :: 0 <= i < n ==> !PendingApproval(steps[i])
  }

  /** Events never turn an existing step back into a pending approval. */
  lemma {:induction false} FoldKeepsSettled(st: Stream, events: seq<Event>, clock: nat -> string, n: nat)
    requires SettledBelow(st.steps, n)
    ensures SettledBelow(Fold(st, events, clock).steps, n)
    decreases |events|
  {
    if |events| > 0 {
      FoldKeepsSettled(st, AllButLast(events), clock, n);
      var prev := Fold(st, AllButLast(events), clock);
      var r := Fold(st, events, clock);
      match Last(events)
      case ToolEnd(runId, output) =>
        assert forall i :: 0 <= i < n ==>
          r.steps[i].kind == prev.steps[i].kind
          && (r.steps[i].status == prev.steps[i].status || r.steps[i].status == Complete);
      case _ =>
        assert forall i :: 0 <= i < n ==> r.steps[i] == prev.steps[i];
    }
  }

  /** The message appended when the request or the stream fails. */
  const Apology: PageMessage := PageMessage(Assistant, NetworkErrorText)

  /** One whole `handleSubmit`. A rejected submit changes nothing. An accepted one clears the
      input, appends the user's text and the answer (and the apology when the transport
      failed), ends not loading, and leaves no approval that was there before pending. */
  function HandleSubmit(s: PageState, t: Transport, parse: string -> Option<Payload>,
                        clock: nat -> string): (r: PageState)
    ensures Blank(s.input) || s.isLoading ==> r == s
    ensures !Blank(s.input) && !s.isLoading ==>
      && r.input == "" && !r.isLoading
      && r.messages == StreamOf(Submit(s), t, parse, clock).messages + (if t.failed then [Apology] else [])
      && r.steps == StreamOf(Submit(s), t, parse, clock).steps
      && |r.messages| == |s.messages| + (if t.failed then 3 else 2)
      && r.messages[..|s.messages|] == s.messages
      && r.messages[|s.messages|] == PageMessage(User, s.input)
      && r.messages[|s.messages| + 1].role == Assistant
      && (t.failed ==> Last(r.messages) == Apology)
      && SettledBelow(r.steps, |s.steps|)
  {
    if !Accepts(s) then s
    else
      AcceptedStream(s, t, parse, clock);
      var st := StreamOf(Submit(s), t, parse, clock);
      var apology := if t.failed then [Apology] else [];
      SlicesOfAppend(st.messages, apology, |s.messages|);
      PageState("", st.messages + apology, st.steps, false)
  }

  /** The stream of an accepted submit, from the submitted state and before the first token. */
  function StreamOf(s: PageState, t: Transport, parse: string -> Option<Payload>,
                    clock: nat -> string): Stream
  {
    Fold(Stream(s.messages, s.steps, false), EventsOf(Read(t.chunks).frames, parse), clock)
  }

  /** After an accepted submit the stream keeps the history, the user's text and an assistant
      answer, and no approval that was there before is pending. */
  lemma AcceptedStream(s: PageState, t: Transport, parse: string -> Option<Payload>, clock: nat -> string)
    requires Accepts(s)
    ensures var st := StreamOf(Submit(s), t, parse, clock);
      && |st.messages| == |s.messages| + 2
      && st.messages[..|s.messages|] == s.messages
      && st.messages[|s.messages|] == PageMessage(User, s.input)
      && Last(st.messages).role == Assistant
      && SettledBelow(st.steps, |s.steps|)
  {
    TrimEmptyIffBlank(s.input);
    var s1 := Submit(s);
    var events := EventsOf(Read(t.chunks).frames, parse);
    var start := Stream(s1.messages, s1.steps, false);
    assert SettledBelow(s1.steps, |s.steps|) by {
      ResolveApprovalsSettles(s.steps);
    }
    FoldKeepsSettled(start, events, clock, |s.steps|);
    StreamKeepsMessages(start, events, clock);
    PrefixKept(s1.messages, Fold(start, events, clock).messages, |s.messages|);
  }

  /** End to end: when the response encodes the events `es`, the messages and the steps are
      those the events make of the submitted state, followed by the apology when the transport
      failed. */
  lemma HandleSubmitOfEncodedStream(s: PageState, t: Transport, es: seq<Event>,
                                    parse: string -> Option<Payload>, clock: nat -> string,
                                    ds: seq<string>, tail: string)
    requires Accepts(s) && Encodes(t.chunks, es, parse, ds, tail)
    ensures var r := HandleSubmit(s, t, parse, clock);
      var st := Fold(Stream(Submit(s).messages, Submit(s).steps, false), es, clock);
      && r.messages == st.messages + (if t.failed then [Apology] else [])
      && r.steps == st.steps
  {
    TrimEmptyIffBlank(s.input);
    EncodedStream(t.chunks, ds, es, tail, parse);
  }

  /** A delivered answer made of tokens only, from the response text to the final state: the
      answer is the tokens' text, the steps are the earlier ones with their approvals
      resolved, and the turn is over. */
  lemma TokensAnswer(s: PageState, t: Transport, texts: seq<string>,
                     parse: string -> Option<Payload>, clock: nat -> string,
                     ds: seq<string>, tail: string)
    requires Accepts(s) && !t.failed && |texts| > 0 && Encodes(t.chunks, Tokens(texts), parse, ds, tail)
    ensures var r := HandleSubmit(s, t, parse, clock);
      && |r.messages| == |s.messages| + 2
      && Last(r.messages) == PageMessage(Assistant, Concat(texts))
      && r.steps == ResolveApprovals(s.steps) && !r.isLoading
  {
    TrimEmptyIffBlank(s.input);
    HandleSubmitOfEncodedStream(s, t, Tokens(texts), parse, clock, ds, tail);
    var start := Stream(Submit(s).messages, Submit(s).steps, false);
    TokensConcatenate(start, texts, clock);
    StreamKeepsMessages(start, Tokens(texts), clock);
  }

  /** A whole submit does not depend on how the response text was cut into chunks. */
  lemma HandleSubmitChunkingInvariant(s: PageState, t1: Transport, t2: Transport,
                                      parse: string -> Option<Payload>, clock: nat -> string)
    requires Concat(t1.chunks) == Concat(t2.chunks) && t1.failed == t2.failed
    ensures HandleSubmit(s, t1, parse, clock) == HandleSubmit(s, t2, parse, clock)
  {
    ChunkingInvariant(t1.chunks, t2.chunks);
  }

  /** Events never touch the messages before the last one, nor change a role. */
  lemma {:induction false} StreamKeepsMessages(st: Stream, events: seq<Event>, clock: nat -> string)
    requires |st.messages| > 0
    ensures var r := Fold(st, events, clock);
      && r.messages[..|st.messages| - 1] == st.messages[..|st.messages| - 1]
      && Last(r.messages).role == Last(st.messages).role
    decreases |events|
  {
    if |events| > 0 {
      StreamKeepsMessages(st, AllButLast(events), clock);
    }
  }

  /** The approval lifecycle: a response asking for approval appends one pending approval step
      after the existing ones; the next accepted submit completes it. */
  lemma ApprovalResolvedOnNextSubmit(s: PageState, text: string, stamp: string, next: string)
    requires Contains(text, ApprovalMarker) && !Blank(next)
    ensures var st := Apply(Stream(s.messages, s.steps, false), Response(text), stamp);
      && |st.steps| == |s.steps| + 1 && PendingApproval(Last(st.steps))
      && var r := Submit(PageState(next, st.messages, st.steps, false));
         Last(r.steps) == Last(st.steps).(status := Complete)
  {
  }
}

=== FILE: strings.dfy ===
/** The JavaScript string operations the chat engine relies on, over `string` (`seq<char>`):
    `includes`, `startsWith`, `split("\n\n")` / `join("\n\n")` and `trim`. */
module Strings {

  /** `sub` occurs in `s` starting at position `i`. */
  predicate OccursAt(s: string, sub: string, i: int) {
    0 <= i && i + |sub| <= |s| && s[i..i + |sub|] == sub
  }

  /** `s.includes(sub)`: some window of `s` equals `sub`. */
  predicate Contains(s: string, sub: string) {
    exists i | 0 <= i <= |s| :: OccursAt(s, sub, i)
  }

  /** `s.startsWith(p)` */
  predicate StartsWith(s: string, p: string) {
    |p| <= |s| && s[..|p|] == p
  }

  function AllButLast<T>(xs: seq<T>): seq<T>
    requires |xs| >= 1
  {
    xs[..|xs| - 1]
  }

  function Last<T>(xs: seq<T>): T
    requires |xs| >= 1
  {
    xs[|xs| - 1]
  }

  /** Two sequences of the same length that agree before their last element agree on every
      earlier index. */
  lemma PrefixKept<T>(a: seq<T>, b: seq<T>, n: nat)
    requires |a| == |b| == n + 2 && b[..n + 1] == a[..n + 1]
    ensures b[..n] == a[..n] && b[n] == a[n]
  {
    assert b[..n] == b[..n + 1][..n];
    assert a[..n] == a[..n + 1][..n];
    assert b[n] == b[..n + 1][n];
    assert a[n] == a[..n + 1][n];
  }

  /** Text appended after position `n` leaves what comes before `n` alone. */
  lemma SlicesOfAppend<T>(a: seq<T>, b: seq<T>, n: nat)
    requires n <= |a|
    ensures (a + b)[..n] == a[..n] && (a + b)[n..] == a[n..] + b
  {
  }

  /** Appending to a non-empty sequence keeps its last element last. */
  lemma LastOfAppend<T>(a: seq<T>, b: seq<T>)
    requires |b| >= 1
    ensures AllButLast(a + b) == a + AllButLast(b) && Last(a + b) == Last(b)
  {
    assert (a + b)[..|a + b| - 1] == a + b[..|b| - 1];
  }

  lemma AppendAssoc<T>(a: seq<T>, b: seq<T>, c: seq<T>)
    ensures (a + b) + c == a + (b + c)
  {
  }

  /** The frame delimiter of the event stream: a blank line. */
  const Delim: string := "\n\n"

  /** `pieces.join("\n\n")` */
  function Join(pieces: seq<string>): string
    requires |pieces| >= 1
  {
    if |pieces| == 1 then pieces[0] else pieces[0] + Delim + Join(pieces[1..])
  }

  /** `s.split("\n\n")`: the text is cut at every delimiter found scanning left to right,
      delimiters never overlapping. Joining the pieces gives the text back. */
  function Split(s: string): (r: seq<string>)
    ensures |r| >= 1
    decreases |s|
  {
    if |s| < 2 then [s]
    else if s[..2] == Delim then [""] + Split(s[2..])
    else var rest := Split(s[1..]); [[s[0]] + rest[0]] + rest[1..]
  }

  /** Joining the pieces of a split gives the text back. */
  lemma {:induction false} JoinSplit(s: string)
    ensures Join(Split(s)) == s
    decreases |s|
  {
    if |s| < 2 {
    } else if s[..2] == Delim {
      JoinSplit(s[2..]);
      JoinSplitDelimCase(s);
    } else {
      JoinSplit(s[1..]);
      JoinSplitCharCase(s);
    }
  }

  /** The step of `JoinSplit` for a text that opens with a delimiter. */
  lemma JoinSplitDelimCase(s: string)
    requires |s| >= 2 && s[..2] == Delim && Join(Split(s[2..])) == s[2..]
    ensures Join(Split(s)) == s
  {
    SplitAtDelim(s);
    var r := Split(s[2..]);
    assert ([""] + r)[1..] == r;
    assert s == Delim + s[2..];
  }

  /** The step of `JoinSplit` for a text that opens with an ordinary character. */
  lemma JoinSplitCharCase(s: string)
    requires |s| >= 2 && s[..2] != Delim && Join(Split(s[1..])) == s[1..]
    ensures Join(Split(s)) == s
  {
    SplitAtChar(s);
    JoinCons(s[0], Split(s[1..]));
    assert s == [s[0]] + s[1..];
  }

  /** Putting a character in front of the first piece puts it in front of the joined text. */
  lemma JoinCons(c: char, pieces: seq<string>)
    requires |pieces| >= 1
    ensures Join([[c] + pieces[0]] + pieces[1..]) == [c] + Join(pieces)
  {
    if |pieces| > 1 {
      JoinConsMore(c, pieces[0], pieces[1..]);
      assert pieces == [pieces[0]] + pieces[1..];
    }
  }

  /** `JoinCons` when there is more than one piece. */
  lemma JoinConsMore(c: char, first: string, more: seq<string>)
    requires |more| >= 1
    ensures Join([[c] + first] + more) == [c] + Join([first] + more)
  {
    var rest := Join(more);
    assert ([[c] + first] + more)[1..] == more;
    assert ([first] + more)[1..] == more;
    AppendAssoc([c], first + Delim, rest);
    AppendAssoc([c], first, Delim);
  }

  /** A text with a single piece is not cut at all. */
  lemma SplitSingle(s: string)
    requires |Split(s)| == 1
    ensures Split(s) == [s]
  {
    JoinSplit(s);
  }

  /** Unfolding `Split` when the text opens with a delimiter. */
  lemma SplitAtDelim(s: string)
    requires |s| >= 2 && s[..2] == Delim
    ensures Split(s) == [""] + Split(s[2..])
  {
  }

  /** Unfolding `Split` when the text opens with a character that starts no delimiter. */
  lemma SplitAtChar(s: string)
    requires |s| >= 2 && s[..2] != Delim
    ensures Split(s) == [[s[0]] + Split(s[1..])[0]] + Split(s[1..])[1..]
  {
  }

  /** Splitting is compatible with appending text: the pieces that were already complete
      in `a` stay as they are, and only the last (open) piece of `a` meets `b`. */
  lemma {:induction false} SplitAppend(a: string, b: string)
    ensures Split(a + b) == AllButLast(Split(a)) + Split(Last(Split(a)) + b)
    decreases |a|
  {
    if |a| < 2 {
      assert Split(a) == [a];
    } else if a[..2] == Delim {
      SplitAppend(a[2..], b);
      SplitAppendDelimCase(a, b);
    } else {
      SplitAppend(a[1..], b);
      SplitAppendCharCase(a, b);
    }
  }

  lemma SplitAppendDelimCase(a: string, b: string)
    requires |a| >= 2 && a[..2] == Delim
    requires Split(a[2..] + b) == AllButLast(Split(a[2..])) + Split(Last(Split(a[2..])) + b)
    ensures Split(a + b) == AllButLast(Split(a)) + Split(Last(Split(a)) + b)
  {
    SlicesOfAppend(a, b, 2);
    SplitAtDelim(a);
    SplitAtDelim(a + b);
    var r := Split(a[2..]);
    LastOfAppend([""], r);
    AppendAssoc([""], AllButLast(r), Split(Last(r) + b));
  }

  lemma SplitAppendCharCase(a: string, b: string)
    requires |a| >= 2 && a[..2] != Delim
    requires Split(a[1..] + b) == AllButLast(Split(a[1..])) + Split(Last(Split(a[1..])) + b)
    ensures Split(a + b) == AllButLast(Split(a)) + Split(Last(Split(a)) + b)
  {
    SlicesOfAppend(a, b, 1);
    SlicesOfAppend(a, b, 2);
    SplitAtChar(a);
    SplitAtChar(a + b);
    var r := Split(a[1..]);
    if |r| == 1 {
      SplitSingle(a);
    } else {
      SplitAppendMiddle(a[0], r, Split(a[1..] + b), Split(Last(r) + b));
    }
  }

  /** The sequence bookkeeping of the last case of `SplitAppend`. */
  lemma SplitAppendMiddle(c: char, r: seq<string>, s: seq<string>, tail: seq<string>)
    requires |r| >= 2 && |tail| >= 1
    requires s == AllButLast(r) + tail
    ensures [[c] + s[0]] + s[1..] == AllButLast([[c] + r[0]] + r[1..]) + tail
  {
    assert s[0] == r[0];
    assert s[1..] == r[1..|r| - 1] + tail;
  }

  /** A piece of a split never contains the delimiter. */
  lemma {:induction false} SplitPiecesHaveNoDelim(s: string)
    ensures forall k :: 0 <= k < |Split(s)| ==> !Contains(Split(s)[k], Delim)
    decreases |s|
  {
    if |s| < 2 {
      assert forall i :: !OccursAt(s, Delim, i);
    } else if s[..2] == Delim {
      SplitPiecesHaveNoDelim(s[2..]);
      assert forall i :: !OccursAt("", Delim, i);
    } else {
      SplitPiecesHaveNoDelim(s[1..]);
      JoinSplit(s[1..]);
      var r := Split(s[1..]);
      assert |r[0]| > 0 ==> s[1] == r[0][0] by {
        if |r| > 1 {
          assert s[1..] == r[0] + (Delim + Join(r[1..]));
        }
      }
      ConsNoDelim(s, r[0]);
    }
  }

  /** A character put before a piece without the delimiter adds none, unless it opens one
      with the piece's first character. */
  lemma ConsNoDelim(s: string, piece: string)
    requires |s| >= 2 && s[..2] != Delim && !Contains(piece, Delim)
    requires |piece| > 0 ==> s[1] == piece[0]
    ensures !Contains([s[0]] + piece, Delim)
  {
    var p := [s[0]] + piece;
    forall i | 0 <= i <= |p|
      ensures !OccursAt(p, Delim, i)
    {
      if i + 2 <= |p| {
        if i > 0 {
          assert p[i..i + 2] == piece[i - 1..i + 1];
          assert !OccursAt(piece, Delim, i - 1);
        } else {
          assert p[..2] == [s[0], piece[0]] == s[..2];
        }
      }
    }
  }

  /** A piece that ends in a newline: a cut right after it, at a delimiter, would not be the
      leftmost cut, since the delimiter starts one character earlier. */
  predicate EndsInNewline(piece: string) {
    |piece| > 0 && piece[|piece| - 1] == '\n'
  }

  /** A split cuts at the leftmost delimiter: no piece but the last ends in a newline. (Cutting
      "\n\n\n" from the right would give "\n" and ""; `split` gives "" and "\n".) */
  lemma {:induction false} SplitPiecesLeftmost(s: string)
    ensures forall k :: 0 <= k < |Split(s)| - 1 ==> !EndsInNewline(Split(s)[k])
    decreases |s|
  {
    if |s| < 2 {
    } else if s[..2] == Delim {
      SplitPiecesLeftmost(s[2..]);
      SplitAtDelim(s);
    } else {
      SplitPiecesLeftmost(s[1..]);
      SplitAtChar(s);
      var rest := Split(s[1..]);
      if |rest| > 1 {
        FirstPieceOfSplit(s[1..]);
        FirstPieceLeftmost(s, rest);
      }
    }
  }

  /** Three newlines split into an empty piece and a newline, cut at the leftmost pair. */
  lemma ThreeNewlinesSplit()
    ensures Split("\n\n\n") == ["", "\n"]
  {
    SplitAtDelim("\n\n\n");
    assert "\n\n\n"[2..] == "\n";
  }

  /** An empty first piece followed by more is the sign of a leading delimiter. */
  lemma FirstPieceOfSplit(s: string)
    requires |Split(s)| > 1
    ensures Split(s)[0] == "" ==> |s| >= 2 && s[..2] == Delim
  {
  }

  /** Putting the text's first character before the first piece of the rest's split gives a
      piece that does not end in a newline: when that piece is empty the rest opens with a
      delimiter, and the text itself does not. */
  lemma FirstPieceLeftmost(s: string, rest: seq<string>)
    requires |s| >= 2 && s[..2] != Delim && |rest| > 1 && !EndsInNewline(rest[0])
    requires rest[0] == "" ==> |s| >= 3 && s[1..3] == Delim
    ensures !EndsInNewline([s[0]] + rest[0])
  {
    if rest[0] == "" {
      assert s[..2] == [s[0], s[1]];
    }
  }

  /** Pieces without the delimiter, none but the last ending in a newline. */
  predicate LeftmostPieces(pieces: seq<string>) {
    && (forall k :: 0 <= k < |pieces| ==> !Contains(pieces[k], Delim))
    && (forall k :: 0 <= k < |pieces| - 1 ==> !EndsInNewline(pieces[k]))
  }

  /** `split` is the only way to cut a text into leftmost pieces: any pieces that join back
      to the text, hold no delimiter and, but for the last, do not end in a newline are the
      pieces of its split. With `JoinSplit`, `SplitPiecesHaveNoDelim` and
      `SplitPiecesLeftmost` this pins `Split` down completely. */
  lemma {:induction false} SplitUnique(pieces: seq<string>, s: string)
    requires |pieces| >= 1 && Join(pieces) == s && LeftmostPieces(pieces)
    ensures Split(s) == pieces
    decreases |s|
  {
    var p := pieces[0];
    if |pieces| > 1 && p == "" {
      var more := pieces[1..];
      assert LeftmostPieces(more) by {
        assert forall k :: 0 <= k < |more| ==> more[k] == pieces[k + 1];
      }
      assert s == Delim + Join(more);
      SlicesOfAppend(Delim, Join(more), 2);
      SplitUnique(more, s[2..]);
      SplitAtDelim(s);
      assert pieces == [""] + more;
    } else if |pieces| == 1 && |s| < 2 {
    } else {
      assert |p| >= 1;
      var pieces' := [p[1..]] + pieces[1..];
      UniqueCharCase(pieces, pieces', s);
      SplitUnique(pieces', s[1..]);
      SplitAtChar(s);
      ReassemblePieces(pieces);
    }
  }

  /** The bookkeeping of the last case of `SplitUnique`: without its first character the
      text is joined from leftmost pieces again, and it does not open with a delimiter. */
  lemma UniqueCharCase(pieces: seq<string>, pieces': seq<string>, s: string)
    requires |pieces| >= 1 && Join(pieces) == s && LeftmostPieces(pieces)
    requires |pieces[0]| >= 1 && |s| >= 2
    requires pieces' == [pieces[0][1..]] + pieces[1..]
    ensures |s| >= 2 && s[..2] != Delim
    ensures Join(pieces') == s[1..] && LeftmostPieces(pieces')
  {
    var p := pieces[0];
    JoinCons(p[0], pieces');
    assert pieces'[1..] == pieces[1..];
    ReassemblePieces(pieces);
    SlicesOfAppend([p[0]], Join(pieces'), 1);
    DropFirstKeepsLeftmost(pieces, pieces');
    NoLeadingDelim(pieces, s);
  }

  /** A text joined from leftmost pieces whose first piece is not empty does not open with
      a delimiter. */
  lemma NoLeadingDelim(pieces: seq<string>, s: string)
    requires |pieces| >= 1 && Join(pieces) == s && LeftmostPieces(pieces)
    requires |pieces[0]| >= 1 && |s| >= 2
    ensures s[..2] != Delim
  {
    var p := pieces[0];
    if |pieces| == 1 {
      assert !OccursAt(p, Delim, 0);
    } else {
      var tail := Delim + Join(pieces[1..]);
      assert s == p + tail;
      if |p| >= 2 {
        SlicesOfAppend(p, tail, 2);
        assert !OccursAt(p, Delim, 0);
      } else {
        assert !EndsInNewline(pieces[0]);
        assert s[..2] == [p[0], tail[0]];
      }
    }
  }

  /** Taking the first character off the first piece and putting it back changes nothing. */
  lemma ReassemblePieces(pieces: seq<string>)
    requires |pieces| >= 1 && |pieces[0]| >= 1
    ensures [[pieces[0][0]] + pieces[0][1..]] + pieces[1..] == pieces
  {
    assert [pieces[0][0]] + pieces[0][1..] == pieces[0];
    assert [pieces[0]] + pieces[1..] == pieces;
  }

  /** Dropping the first character of the first piece keeps the pieces leftmost. */
  lemma DropFirstKeepsLeftmost(pieces: seq<string>, pieces': seq<string>)
    requires |pieces| >= 1 && |pieces[0]| >= 1 && LeftmostPieces(pieces)
    requires pieces' == [pieces[0][1..]] + pieces[1..]
    ensures LeftmostPieces(pieces')
  {
    var p := pieces[0];
    forall i | 0 <= i <= |p[1..]|
      ensures !OccursAt(p[1..], Delim, i)
    {
      if OccursAt(p[1..], Delim, i) {
        assert p[i + 1..i + 3] == p[1..][i..i + 2];
        assert OccursAt(p, Delim, i + 1);
      }
    }
    assert forall k :: 1 <= k < |pieces'| ==> pieces'[k] == pieces[k];
  }

  /** The UTF-16 code units a character takes: two for one outside the Basic Multilingual
      Plane (a surrogate pair), one otherwise. */
  function CodeUnits(c: char): nat {
    if c as int >= 0x10000 then 2 else 1
  }

  /** `s.length`: JavaScript counts UTF-16 code units, not characters. */
  function Utf16Length(s: string): (n: nat)
    ensures |s| <= n <= 2 * |s|
    ensures (forall i :: 0 <= i < |s| ==> s[i] as int < 0x10000) ==> n == |s|
    decreases |s|
  {
    if |s| == 0 then 0 else Utf16Length(AllButLast(s)) + CodeUnits(Last(s))
  }

  /** The length of a concatenation is the sum of the lengths. */
  lemma {:induction false} Utf16LengthAppend(a: string, b: string)
    ensures Utf16Length(a + b) == Utf16Length(a) + Utf16Length(b)
    decreases |b|
  {
    if |b| == 0 {
      assert a + b == a;
    } else {
      assert AllButLast(a + b) == a + AllButLast(b);
      assert Last(a + b) == Last(b);
      Utf16LengthAppend(a, AllButLast(b));
    }
  }

  /** Three emoji are three characters but six code units. */
  lemma ThreeEmojiAreSixUnits()
    ensures |"\U{1F600}\U{1F600}\U{1F600}"| == 3 && Utf16Length("\U{1F600}\U{1F600}\U{1F600}") == 6
  {
    var e := "\U{1F600}\U{1F600}\U{1F600}";
    assert AllButLast(e) == "\U{1F600}\U{1F600}";
    assert AllButLast(AllButLast(e)) == "\U{1F600}";
    assert AllButLast(AllButLast(AllButLast(e))) == "";
  }

  /** ECMAScript WhiteSpace and LineTerminator code points, the ones `trim` removes. */
  predicate IsJsSpace(c: char) {
    var n := c as int;
    n == 0x09 || n == 0x0A || n == 0x0B || n == 0x0C || n == 0x0D || n == 0x20
    || n == 0xA0 || n == 0x1680 || (0x2000 <= n <= 0x200A) || n == 0x2028 || n == 0x2029
    || n == 0x202F || n == 0x205F || n == 0x3000 || n == 0xFEFF
  }

  /** Every character is white space (an empty text is blank). */
  predicate Blank(s: string) {
    forall i :: 0 <= i < |s| ==> IsJsSpace(s[i])
  }

  /** The end of the run of white space starting at `from`. */
  function SpaceRunFrom(s: string, from: nat): (n: nat)
    requires from <= |s|
    ensures from <= n <= |s|
    ensures forall i :: from <= i < n ==> IsJsSpace(s[i])
    ensures n < |s| ==> !IsJsSpace(s[n])
    decreases |s| - from
  {
    if from < |s| && IsJsSpace(s[from]) then SpaceRunFrom(s, from + 1) else from
  }

  /** The start of the run of white space ending at `to`. */
  function SpaceRunTo(s: string, to: nat): (n: nat)
    requires to <= |s|
    ensures n <= to
    ensures forall i :: n <= i < to ==> IsJsSpace(s[i])
    ensures n > 0 ==> !IsJsSpace(s[n - 1])
  {
    if to > 0 && IsJsSpace(s[to - 1]) then SpaceRunTo(s, to - 1) else to
  }

  /** `s.trimStart()`: the text after its leading white space. */
  function TrimStart(s: string): (r: string)
    ensures |r| <= |s| && r == s[|s| - |r|..]
    ensures Blank(s[..|s| - |r|])
    ensures |r| > 0 ==> !IsJsSpace(r[0])
  {
    s[SpaceRunFrom(s, 0)..]
  }

  /** `s.trimEnd()`: the text before its trailing white space. */
  function TrimEnd(s: string): (r: string)
    ensures |r| <= |s| && r == s[..|r|]
    ensures Blank(s[|r|..])
    ensures |r| > 0 ==> !IsJsSpace(r[|r| - 1])
  {
    s[..SpaceRunTo(s, |s|)]
  }

  /** `s.trim()`: the text without its leading and trailing white space; everything cut off
      on either side is white space. */
  function Trim(s: string): (r: string)
    ensures Contains(s, r)
    ensures exists i | 0 <= i <= |s| - |r| ::
      r == s[i..i + |r|] && Blank(s[..i]) && Blank(s[i + |r|..])
    ensures |r| > 0 ==> !IsJsSpace(r[0]) && !IsJsSpace(r[|r| - 1])
  {
    TrimmedWindow(s);
    TrimEnd(TrimStart(s))
  }

  /** What `TrimStart` and then `TrimEnd` keep is a window of the text with white space only
      before and after it. */
  lemma TrimmedWindow(s: string)
    ensures var t := TrimStart(s); var r := TrimEnd(t); var i := |s| - |t|;
      OccursAt(s, r, i) && Blank(s[..i]) && Blank(s[i + |r|..])
  {
    var t := TrimStart(s);
    var r := TrimEnd(t);
    var i := |s| - |t|;
    assert s[i + |r|..] == t[|r|..];
  }

  /** `!s.trim()` holds exactly for the texts made of white space only. */
  lemma TrimEmptyIffBlank(s: string)
    ensures Trim(s) == "" <==> Blank(s)
  {
    var t := TrimStart(s);
    if Trim(s) == "" {
      assert t[0..] == t;
      assert s[..|s|] == s;
    }
  }
}

=== FILE: types.dfy ===
/** The records of the chat engine (types/chat.ts) and the decoded stream events. */
module ChatTypes {

  /** A JavaScript optional property: absent (`undefined`) or present. */
  datatype Option<+T> = None | Some(value: T) {
    function GetOr(default: T): T {
      match this
      case Some(v) => v
      case None => default
    }
  }

  datatype Role = User | Assistant

  /** The `type` of a step. */
  datatype StepKind = ToolCall | Reasoning | ErrorKind | ResponseKind | Approval

  datatype Status = Pending | Complete | Failed

  /** A step of the agent's thought process. `content` holds the tool input or the error
      text (JSON values other than text are out of scope); the timestamp is not modelled. */
  datatype Step = Step(
    id: string,
    title: string,
    name: string,
    kind: StepKind,
    content: Option<string>,
    output: Option<string>,
    status: Status)

  /** A message of the transcript; `steps` and `isThinking` are optional as in the source. */
  datatype Message = Message(
    role: Role,
    content: string,
    steps: Option<seq<Step>>,
    isThinking: Option<bool>)

  /** The steps of a message, an absent list read as empty (`msg.steps ? [...msg.steps] : []`). */
  function StepsOf(m: Message): seq<Step> {
    m.steps.GetOr([])
  }

  /** The texts are pairwise distinct. */
  predicate Distinct(ids: seq<string>) {
    forall i, j :: 0 <= i < j < |ids| ==> ids[i] != ids[j]
  }

  /** Appending a text not yet present keeps the texts distinct. */
  lemma AppendKeepsDistinct(ids: seq<string>, id: string)
    requires Distinct(ids) && id !in ids
    ensures Distinct(ids + [id])
  {
    var r := ids + [id];
    forall i, j | 0 <= i < j < |r|
      ensures r[i] != r[j]
    {
      if j == |ids| {
        assert r[i] == ids[i];
      }
    }
  }

  /** The ids of a list of steps, in order. */
  function Ids(steps: seq<Step>): (r: seq<string>)
    ensures |r| == |steps| && forall k :: 0 <= k < |steps| ==> r[k] == steps[k].id
  {
    seq(|steps|, k requires 0 <= k < |steps| => steps[k].id)
  }

  /** The object `JSON.parse` returned for one payload, each field absent or a string. */
  datatype Payload = Payload(
    kind: Option<string>,
    content: Option<string>,
    runId: Option<string>,
    name: Option<string>,
    input: Option<string>,
    output: Option<string>)

  /** A stream event after classification on the `type` field. */
  datatype Event =
    | Token(text: string)
    | ToolStart(runId: Option<string>, name: string, input: Option<string>)
    | ToolEnd(runId: Option<string>, output: Option<string>)
    | Response(text: string)
    | Error(detail: Option<string>)

  /** Classifies a payload on its `type` discriminator. An unknown or missing `type` is no
      event, and so is a payload lacking a text field the handler reads as a string. */
  function Decode(p: Payload): (r: Option<Event>)
    ensures r.Some? ==> p.kind.Some?
    ensures r.Some? && r.value.Token? ==> p.kind == Some("token") && p.content == Some(r.value.text)
    ensures r.Some? && r.value.ToolStart? ==>
      p.kind == Some("tool_start") && p.name == Some(r.value.name)
      && r.value.runId == p.runId && r.value.input == p.input
    ensures r.Some? && r.value.ToolEnd? ==>
      p.kind == Some("tool_end") && r.value.runId == p.runId && r.value.output == p.output
    ensures r.Some? && r.value.Response? ==>
      p.kind == Some("response") && p.content == Some(r.value.text)
    ensures r.Some? && r.value.Error? ==> p.kind == Some("error") && r.value.detail == p.content
    ensures r.None? <==>
      || p.kind !in {Some("token"), Some("tool_start"), Some("tool_end"), Some("response"), Some("error")}
      || (p.kind in {Some("token"), Some("response")} && p.content.None?)
      || (p.kind == Some("tool_start") && p.name.None?)
  {
    match p.kind
    case Some("token") => if p.content.Some? then Some(Token(p.content.value)) else None
    case Some("tool_start") =>
      if p.name.Some? then Some(ToolStart(p.runId, p.name.value, p.input)) else None
    case Some("tool_end") => Some(ToolEnd(p.runId, p.output))
    case Some("response") => if p.content.Some? then Some(Response(p.content.value)) else None
    case Some("error") => Some(Error(p.content))
    case _ => None
  }

  /** Token events for a list of texts. */
  function Tokens(texts: seq<string>): (r: seq<Event>)
    ensures |r| == |texts| && forall k :: 0 <= k < |texts| ==> r[k] == Token(texts[k])
  {
    seq(|texts|, k requires 0 <= k < |texts| => Token(texts[k]))
  }

  /** The payload the backend sends for an event: the `type` it is classified on and the
      fields its handler reads, every other field absent. */
  function PayloadOf(e: Event): (p: Payload)
    ensures p.kind.Some?
  {
    match e
    case Token(text) => Payload(Some("token"), Some(text), None, None, None, None)
    case ToolStart(runId, name, input) => Payload(Some("tool_start"), None, runId, Some(name), input, None)
    case ToolEnd(runId, output) => Payload(Some("tool_end"), None, runId, None, None, output)
    case Response(text) => Payload(Some("response"), Some(text), None, None, None, None)
    case Error(detail) => Payload(Some("error"), detail, None, None, None, None)
  }

  /** Every event is the decoding of the payload sent for it: decoding loses no event. */
  lemma DecodePayloadOf(e: Event)
    ensures Decode(PayloadOf(e)) == Some(e)
  {
  }

  /** Reads a run id the way `data.run_id || fallback` does: an absent or empty id is
      replaced by the fallback. */
  function IdOr(runId: Option<string>, fallback: string): (r: string)
    ensures runId.Some? && runId.value != "" ==> r == runId.value
    ensures runId == None || runId == Some("") ==> r == fallback
  {
    if runId.Some? && runId.value != "" then runId.value else fallback
  }

  /** The text the stream of a failed turn is replaced with. */
  const NetworkErrorText: string := "Sorry, I encountered network error."

  /** The marker a response carries when the agent waits for a human decision. */
  const ApprovalMarker: string := "APPROVAL REQUIRED"
}

=== FILE: use_chat.dfy ===
/** The current chat engine, hooks/useChat.ts: a transcript of messages, each assistant
    message carrying its own steps and thinking flag, updated event by event. React state
    updates are modelled as sequential pure functions over the transcript. */
module UseChat {
  import opened Strings
  import opened ChatTypes
  import opened FriendlyNames
  import opened Framing

  /** The last message exists and is an assistant message: the one events update. */
  predicate IsOpen(msgs: seq<Message>) {
    |msgs| > 0 && Last(msgs).role == Assistant
  }

  /** The message the user typed. */
  function UserMessage(text: string): Message {
    Message(User, text, None, None)
  }

  /** The assistant message that stands in for the answer until the stream fills it. */
  const Placeholder: Message := Message(Assistant, "", Some([]), Some(true))

  /** The message appended when the request or the stream fails. */
  const Apology: Message := Message(Assistant, NetworkErrorText, Some([]), Some(false))

  /** The synchronous part of `sendMessage`: exactly two messages are appended, the user's
      message and then an empty thinking assistant message, which becomes the open one. */
  function Send(msgs: seq<Message>, text: string): (r: seq<Message>)
    ensures |r| == |msgs| + 2 && r[..|msgs|] == msgs
    ensures r[|msgs|].role == User && r[|msgs|].content == text
    ensures r[|msgs| + 1].role == Assistant && r[|msgs| + 1].content == ""
    ensures StepsOf(r[|msgs| + 1]) == [] && r[|msgs| + 1].isThinking == Some(true)
    ensures IsOpen(r)
  {
    msgs + [UserMessage(text)] + [Placeholder]
  }

  /** The step a tool start creates: pending, labelled by the tool name. */
  function ToolStep(id: string, name: string, input: Option<string>): Step {
    Step(id, FriendlyName(name), name, ToolCall, input, None, Pending)
  }

  /** The step a response asking for approval creates. */
  function ApprovalStep(stamp: string): Step {
    Step("approval-" + stamp, "Approval Required", "approval", Approval, None, None, Pending)
  }

  /** The step an error event creates. */
  function ErrorStep(stamp: string, detail: Option<string>): Step {
    Step("err-" + stamp, "Error Occurred", "error", ErrorKind, detail, None, Failed)
  }

  /** `s.id === data.run_id`: an absent run id matches no step. */
  predicate IdIs(s: Step, runId: Option<string>) {
    runId == Some(s.id)
  }

  /** Some step has the run id. */
  predicate HasRun(steps: seq<Step>, runId: Option<string>) {
    exists i :: 0 <= i < |steps| && IdIs(steps[i], runId)
  }

  /** Step `k` is the first step with the run id. */
  predicate FirstRunAt(steps: seq<Step>, runId: Option<string>, k: int) {
    0 <= k < |steps| && IdIs(steps[k], runId)
    && forall j :: 0 <= j < k ==> !IdIs(steps[j], runId)
  }

  /** `steps.findIndex(s => s.id === runId)`, -1 being `None`. */
  function FindIndex(steps: seq<Step>, runId: Option<string>): (r: Option<nat>)
    ensures r.Some? ==> FirstRunAt(steps, runId, r.value)
    ensures r.None? <==> !HasRun(steps, runId)
    decreases |steps|
  {
    if |steps| == 0 then None
    else if IdIs(steps[0], runId) then Some(0)
    else
      match FindIndex(steps[1..], runId)
      case None => None
      case Some(k) => Some(k + 1)
  }

  /** A `token` event: the text is appended to the content, and the thinking flag is cleared
      once the content is longer than five UTF-16 code units, otherwise left as it was. */
  function OnToken(m: Message, text: string): (r: Message)
    ensures r.role == m.role && r.steps == m.steps
    ensures r.content == m.content + text
    ensures Utf16Length(r.content) > 5 ==> r.isThinking == Some(false)
    ensures Utf16Length(r.content) <= 5 ==> r.isThinking == m.isThinking
  {
    var content := m.content + text;
    m.(content := content, isThinking := if Utf16Length(content) > 5 then Some(false) else m.isThinking)
  }

  /** A `tool_start` event: the message is thinking again, and a pending tool step is
      appended unless a step already has the run id. */
  function OnToolStart(m: Message, runId: Option<string>, name: string, input: Option<string>,
                       stamp: string): (r: Message)
    ensures r.role == m.role && r.content == m.content
    ensures r.isThinking == Some(true)
    ensures HasRun(StepsOf(m), runId) ==> r.steps == Some(StepsOf(m))
    ensures !HasRun(StepsOf(m), runId) ==>
      r.steps == Some(StepsOf(m) + [ToolStep(IdOr(runId, stamp), name, input)])
  {
    var steps := StepsOf(m);
    var steps' := if HasRun(steps, runId) then steps else steps + [ToolStep(IdOr(runId, stamp), name, input)];
    m.(steps := Some(steps'), isThinking := Some(true))
  }

  /** A `tool_end` event: the first step with the run id is marked complete with the output,
      every other step is kept; without such a step the steps are kept as they are. */
  function OnToolEnd(m: Message, runId: Option<string>, output: Option<string>): (r: Message)
    ensures r.role == m.role && r.content == m.content && r.isThinking == m.isThinking
    ensures r.steps.Some? && |StepsOf(r)| == |StepsOf(m)|
    ensures !HasRun(StepsOf(m), runId) ==> StepsOf(r) == StepsOf(m)
    ensures forall k :: FirstRunAt(StepsOf(m), runId, k) ==>
      && StepsOf(r)[k] == StepsOf(m)[k].(status := Complete, output := output)
      && forall j :: 0 <= j < |StepsOf(m)| && j != k ==> StepsOf(r)[j] == StepsOf(m)[j]
  {
    var steps := StepsOf(m);
    match FindIndex(steps, runId)
    case None => m.(steps := Some(steps))
    case Some(k) => m.(steps := Some(steps[k := steps[k].(status := Complete, output := output)]))
  }

  /** A `response` event: the content is replaced; a response asking for approval also
      appends a pending approval step and stops the thinking indicator. */
  function OnResponse(m: Message, text: string, stamp: string): (r: Message)
    ensures r.role == m.role && r.content == text
    ensures Contains(text, ApprovalMarker) ==>
      r.steps == Some(StepsOf(m) + [ApprovalStep(stamp)]) && r.isThinking == Some(false)
    ensures !Contains(text, ApprovalMarker) ==> r.steps == m.steps && r.isThinking == m.isThinking
  {
    if Contains(text, ApprovalMarker) then
      m.(content := text, steps := Some(StepsOf(m) + [ApprovalStep(stamp)]), isThinking := Some(false))
    else m.(content := text)
  }

  /** An `error` event: an error step is appended and the thinking indicator stops. */
  function OnError(m: Message, detail: Option<string>, stamp: string): (r: Message)
    ensures r.role == m.role && r.content == m.content
    ensures r.steps == Some(StepsOf(m) + [ErrorStep(stamp, detail)])
    ensures r.isThinking == Some(false)
  {
    m.(steps := Some(StepsOf(m) + [ErrorStep(stamp, detail)]), isThinking := Some(false))
  }

  /** The open message after one event; `stamp` stands for the time-or-random text the
      source uses for ids it makes up. The role is never changed. */
  function Update(m: Message, e: Event, stamp: string): (r: Message)
    ensures r.role == m.role
  {
    match e
    case Token(text) => OnToken(m, text)
    case ToolStart(runId, name, input) => OnToolStart(m, runId, name, input, stamp)
    case ToolEnd(runId, output) => OnToolEnd(m, runId, output)
    case Response(text) => OnResponse(m, text, stamp)
    case Error(detail) => OnError(m, detail, stamp)
  }

  /** The `setMessages` updater run for each event: only the last message may change, and only
      when it is an assistant message; the transcript keeps its length. */
  function ApplyEvent(msgs: seq<Message>, e: Event, stamp: string): (r: seq<Message>)
    ensures |r| == |msgs| && (|msgs| > 0 ==> r[..|msgs| - 1] == msgs[..|msgs| - 1])
    ensures !IsOpen(msgs) ==> r == msgs
    ensures IsOpen(msgs) ==> Last(r) == Update(Last(msgs), e, stamp) && IsOpen(r)
  {
    if !IsOpen(msgs) then msgs
    else AllButLast(msgs) + [Update(Last(msgs), e, stamp)]
  }

  /** The events of a stream applied in order; event `k` gets the stamp id `clock(k)`. */
  function Fold(msgs: seq<Message>, events: seq<Event>, clock: nat -> string): (r: seq<Message>)
    ensures |r| == |msgs|
    ensures |msgs| > 0 ==> r[..|msgs| - 1] == msgs[..|msgs| - 1]
    ensures !IsOpen(msgs) ==> r == msgs
    ensures IsOpen(msgs) ==> IsOpen(r)
    decreases |events|
  {
    if |events| == 0 then msgs
    else ApplyEvent(Fold(msgs, AllButLast(events), clock), Last(events), clock(|events| - 1))
  }

  /** The `finally` step: the last message, when it is an assistant message, stops thinking;
      nothing else changes. */
  function Finalize(msgs: seq<Message>): (r: seq<Message>)
    ensures |r| == |msgs| && (|msgs| > 0 ==> r[..|msgs| - 1] == msgs[..|msgs| - 1])
    ensures IsOpen(msgs) ==> Last(r) == Last(msgs).(isThinking := Some(false))
    ensures !IsOpen(msgs) ==> r == msgs
  {
    if IsOpen(msgs) then AllButLast(msgs) + [Last(msgs).(isThinking := Some(false))] else msgs
  }

  /** The transcript once the events of the whole response have been applied to the sent one. */
  function Streamed(msgs: seq<Message>, text: string, t: Transport, parse: string -> Option<Payload>,
                    clock: nat -> string): seq<Message>
  {
    Fold(Send(msgs, text), EventsOf(Read(t.chunks).frames, parse), clock)
  }

  /** One whole turn of `sendMessage`: send, read and apply the stream, append the apology if
      the transport failed, then finalise. The earlier transcript is untouched, the user's
      message follows it, and the turn ends on an assistant message that is not thinking —
      the apology, when the transport failed. */
  function Turn(msgs: seq<Message>, text: string, t: Transport, parse: string -> Option<Payload>,
                clock: nat -> string): (r: seq<Message>)
    ensures |r| == |msgs| + (if t.failed then 3 else 2)
    ensures r[..|msgs|] == msgs
    ensures r[|msgs|] == UserMessage(text)
    ensures var answer := Last(Streamed(msgs, text, t, parse, clock));
      r[|msgs| + 1] == if t.failed then answer else answer.(isThinking := Some(false))
    ensures IsOpen(r) && Last(r).isThinking == Some(false)
    ensures t.failed ==> Last(r) == Apology
  {
    var sent := Send(msgs, text);
    var streamed := Streamed(msgs, text, t, parse, clock);
    assert streamed[..|msgs| + 1] == sent[..|msgs| + 1];
    var apology := if t.failed then [Apology] else [];
    var ended := streamed + apology;
    SlicesOfAppend(streamed, apology, |msgs| + 1);
    var r := Finalize(ended);
    assert r[..|msgs| + 1] == ended[..|msgs| + 1];
    r
  }

  /** End to end: a delivered response that encodes the events `es` leaves as the answer the
      placeholder after exactly those events, no longer thinking. */
  lemma TurnOfEncodedStream(msgs: seq<Message>, text: string, t: Transport, es: seq<Event>,
                            parse: string -> Option<Payload>, clock: nat -> string,
                            ds: seq<string>, tail: string)
    requires !t.failed && Encodes(t.chunks, es, parse, ds, tail)
    ensures var r := Turn(msgs, text, t, parse, clock);
      |r| == |msgs| + 2 && Last(r) == Last(Fold(Send(msgs, text), es, clock)).(isThinking := Some(false))
  {
    EncodedStream(t.chunks, ds, es, tail, parse);
  }

  /** The whole scenario, from the response text to the finished turn: a tool starts and
      ends, and the answer streams as tokens. The answer carries one complete step labelled by
      the tool, its content is the tokens' text, and it is no longer thinking. */
  lemma TurnToolThenAnswer(msgs: seq<Message>, text: string, t: Transport, id: string, name: string,
                           input: Option<string>, output: Option<string>, texts: seq<string>,
                           parse: string -> Option<Payload>, clock: nat -> string,
                           ds: seq<string>, tail: string)
    requires id != "" && !t.failed
    requires Encodes(t.chunks, [ToolStart(Some(id), name, input), ToolEnd(Some(id), output)] + Tokens(texts),
                     parse, ds, tail)
    ensures var r := Turn(msgs, text, t, parse, clock);
      && |r| == |msgs| + 2 && r[..|msgs|] == msgs && r[|msgs|] == UserMessage(text)
      && StepsOf(Last(r)) == [Step(id, FriendlyName(name), name, ToolCall, input, output, Complete)]
      && Last(r).content == Concat(texts) && Last(r).isThinking == Some(false)
  {
    var es := [ToolStart(Some(id), name, input), ToolEnd(Some(id), output)] + Tokens(texts);
    TurnOfEncodedStream(msgs, text, t, es, parse, clock, ds, tail);
    ToolThenAnswer(msgs, text, id, name, input, output, texts, clock);
  }

  /** A turn does not depend on how the response text was cut into chunks. */
  lemma TurnChunkingInvariant(msgs: seq<Message>, text: string, t1: Transport, t2: Transport,
                              parse: string -> Option<Payload>, clock: nat -> string)
    requires Concat(t1.chunks) == Concat(t2.chunks) && t1.failed == t2.failed
    ensures Turn(msgs, text, t1, parse, clock) == Turn(msgs, text, t2, parse, clock)
  {
    ChunkingInvariant(t1.chunks, t2.chunks);
  }

  /** The corrected turn does not depend on the chunking either. */
  lemma TurnFixedChunkingInvariant(msgs: seq<Message>, text: string, t1: Transport, t2: Transport,
                                   parse: string -> Option<Payload>, clock: nat -> string)
    requires Concat(t1.chunks) == Concat(t2.chunks) && t1.failed == t2.failed
    ensures TurnFixed(msgs, text, t1, parse, clock) == TurnFixed(msgs, text, t2, parse, clock)
  {
    ChunkingInvariant(t1.chunks, t2.chunks);
  }

  /** A stream of tokens only: the open message's content is extended by the tokens' texts in
      order, the steps are kept, and the thinking flag ends cleared exactly when the content
      grew past five UTF-16 code units (and some token arrived). */
  lemma {:induction false} TokensConcatenate(msgs: seq<Message>, texts: seq<string>, clock: nat -> string)
    requires IsOpen(msgs)
    ensures var r := Fold(msgs, Tokens(texts), clock);
      && Last(r).content == Last(msgs).content + Concat(texts)
      && Last(r).steps == Last(msgs).steps
      && (|texts| > 0 && Utf16Length(Last(r).content) > 5 ==> Last(r).isThinking == Some(false))
      && (Utf16Length(Last(r).content) <= 5 ==> Last(r).isThinking == Last(msgs).isThinking)
    decreases |texts|
  {
    if |texts| > 0 {
      var init := AllButLast(texts);
      TokensConcatenate(msgs, init, clock);
      var prev := Last(Fold(msgs, Tokens(init), clock));
      FoldLastToken(msgs, texts, clock);
      Utf16LengthAppend(prev.content, Last(texts));
      AppendAssoc(Last(msgs).content, Concat(init), Last(texts));
    }
  }

  /** The last of a run of tokens is applied to the open message the earlier ones left. */
  lemma FoldLastToken(msgs: seq<Message>, texts: seq<string>, clock: nat -> string)
    requires IsOpen(msgs) && |texts| > 0
    ensures Last(Fold(msgs, Tokens(texts), clock))
      == OnToken(Last(Fold(msgs, Tokens(AllButLast(texts)), clock)), Last(texts))
  {
    assert AllButLast(Tokens(texts)) == Tokens(AllButLast(texts));
    assert Last(Tokens(texts)) == Token(Last(texts));
  }

  /** Starting a tool whose run id is already present changes nothing about the steps: a
      duplicate start is absorbed. */
  lemma DuplicateToolStart(msgs: seq<Message>, id: string, name: string, input: Option<string>,
                           name': string, input': Option<string>, f1: string, f2: string)
    requires IsOpen(msgs) && id != ""
    ensures var once := ApplyEvent(msgs, ToolStart(Some(id), name, input), f1);
      ApplyEvent(once, ToolStart(Some(id), name', input'), f2) == once
  {
    var once := ApplyEvent(msgs, ToolStart(Some(id), name, input), f1);
    var steps := StepsOf(Last(once));
    assert HasRun(steps, Some(id)) by {
      if !HasRun(StepsOf(Last(msgs)), Some(id)) {
        assert IdIs(steps[|steps| - 1], Some(id));
      }
    }
    assert AllButLast(once) + [Last(once)] == once;
  }

  /** A tool start for a new run id followed by its end leaves one more step, last, complete
      with the output and labelled by the tool name. */
  lemma StartThenEnd(msgs: seq<Message>, id: string, name: string, input: Option<string>,
                     output: Option<string>, f1: string, f2: string)
    requires IsOpen(msgs) && id != "" && !HasRun(StepsOf(Last(msgs)), Some(id))
    ensures var once := ApplyEvent(msgs, ToolStart(Some(id), name, input), f1);
      var r := ApplyEvent(once, ToolEnd(Some(id), output), f2);
      && StepsOf(Last(r))
         == StepsOf(Last(msgs)) + [Step(id, FriendlyName(name), name, ToolCall, input, output, Complete)]
      && Last(r).isThinking == Some(true) && Last(r).content == Last(msgs).content
  {
    var before := StepsOf(Last(msgs));
    var once := ApplyEvent(msgs, ToolStart(Some(id), name, input), f1);
    var steps := StepsOf(Last(once));
    assert steps == before + [ToolStep(id, name, input)];
    assert FirstRunAt(steps, Some(id), |before|);
    var r := ApplyEvent(once, ToolEnd(Some(id), output), f2);
    assert StepsOf(Last(r)) == before + [Step(id, FriendlyName(name), name, ToolCall, input, output, Complete)];
  }

  /** An end without a matching start leaves the transcript as it was, once the open message
      has a step list. */
  lemma EndWithoutStart(msgs: seq<Message>, runId: Option<string>, output: Option<string>, stamp: string)
    requires IsOpen(msgs) && Last(msgs).steps.Some? && !HasRun(StepsOf(Last(msgs)), runId)
    ensures ApplyEvent(msgs, ToolEnd(runId, output), stamp) == msgs
  {
    var r := ApplyEvent(msgs, ToolEnd(runId, output), stamp);
    assert Last(r) == Last(msgs);
    assert AllButLast(msgs) + [Last(msgs)] == msgs;
  }

  /** The stamp text cannot produce an id some step already has. */
  predicate StampIsNew(stamp: string, steps: seq<Step>) {
    stamp !in Ids(steps) && "approval-" + stamp !in Ids(steps) && "err-" + stamp !in Ids(steps)
  }

  /** Appending a step whose id is new keeps the ids distinct. */
  lemma AppendStepKeepsDistinct(steps: seq<Step>, s: Step)
    requires Distinct(Ids(steps)) && s.id !in Ids(steps)
    ensures Distinct(Ids(steps + [s]))
  {
    assert Ids(steps + [s]) == Ids(steps) + [s.id];
    AppendKeepsDistinct(Ids(steps), s.id);
  }

  /** Every event keeps the step ids of the open message distinct, provided the stamp text
      yields ids not already in use. */
  lemma ApplyEventKeepsIdsUnique(msgs: seq<Message>, e: Event, stamp: string)
    requires IsOpen(msgs) && Distinct(Ids(StepsOf(Last(msgs)))) && StampIsNew(stamp, StepsOf(Last(msgs)))
    ensures Distinct(Ids(StepsOf(Last(ApplyEvent(msgs, e, stamp)))))
  {
    var m := Last(msgs);
    var steps := StepsOf(m);
    match e
    case ToolStart(runId, name, input) =>
      if !HasRun(steps, runId) {
        var id := IdOr(runId, stamp);
        assert id !in Ids(steps);
        AppendStepKeepsDistinct(steps, ToolStep(id, name, input));
      }
    case ToolEnd(runId, output) =>
      var r := StepsOf(OnToolEnd(m, runId, output));
      forall i | 0 <= i < |r|
        ensures Ids(r)[i] == Ids(steps)[i]
      {
        var k := FindIndex(steps, runId);
        if k.Some? {
          assert FirstRunAt(steps, runId, k.value);
        }
      }
      assert Ids(r) == Ids(steps);
    case Response(text) =>
      if Contains(text, ApprovalMarker) {
        AppendStepKeepsDistinct(steps, ApprovalStep(stamp));
      }
    case Error(detail) =>
      AppendStepKeepsDistinct(steps, ErrorStep(stamp, detail));
    case Token(_) =>
  }

  /** Three tokens spelling "Hello!" streamed into a fresh placeholder: the content is the
      whole word, and the message has stopped thinking, its content being six code units. */
  lemma HelloTokens(msgs: seq<Message>, clock: nat -> string)
    ensures var r := Fold(Send(msgs, "hi"), Tokens(["H", "e", "llo!"]), clock);
      Last(r).content == "Hello!" && Last(r).isThinking == Some(false)
  {
    var texts := ["H", "e", "llo!"];
    TokensConcatenate(Send(msgs, "hi"), texts, clock);
    assert Concat(texts) == "Hello!" by {
      assert AllButLast(texts) == ["H", "e"];
      assert AllButLast(["H", "e"]) == ["H"];
      assert AllButLast(["H"]) == [];
    }
  }

  /** The threshold counts UTF-16 code units: three emoji make a content of six, and the
      placeholder stops thinking. */
  lemma EmojiTokenStopsThinking()
    ensures OnToken(Placeholder, "\U{1F600}\U{1F600}\U{1F600}").isThinking == Some(false)
  {
    ThreeEmojiAreSixUnits();
    assert Placeholder.content + "\U{1F600}\U{1F600}\U{1F600}" == "\U{1F600}\U{1F600}\U{1F600}";
  }

  /** The transcript keeps thinking only through its last message: after a transport failure
      the placeholder of the turn stays as it was left by the stream. */
  lemma {:induction false} FailedTurnKeepsPlaceholder(msgs: seq<Message>, text: string, t: Transport,
                                                      parse: string -> Option<Payload>, clock: nat -> string)
    requires t.failed
    ensures var r := Turn(msgs, text, t, parse, clock);
      r[|msgs| + 1] == Last(Fold(Send(msgs, text), EventsOf(Read(t.chunks).frames, parse), clock))
  {
    var sent := Send(msgs, text);
    var streamed := Fold(sent, EventsOf(Read(t.chunks).frames, parse), clock);
    var ended := streamed + [Apology];
    assert ended[|msgs| + 1] == Last(streamed);
    var r := Finalize(ended);
    assert r[..|ended| - 1][|msgs| + 1] == r[|msgs| + 1];
  }

  /** The counterexample: the request fails before any text arrives; the placeholder keeps
      `isThinking` set although the turn is over, so its spinner never stops. */
  lemma FailedRequestLeavesSpinner(msgs: seq<Message>, text: string,
                                   parse: string -> Option<Payload>, clock: nat -> string)
    ensures var r := Turn(msgs, text, Transport([], true), parse, clock);
      r[|msgs| + 1].role == Assistant && r[|msgs| + 1].isThinking == Some(true)
  {
    FailedTurnKeepsPlaceholder(msgs, text, Transport([], true), parse, clock);
    assert EventsOf(Read([]).frames, parse) == [];
  }

  /** Stops the thinking indicator of every assistant message from index `from` on, leaving
      everything else as it is. */
  function SettleFrom(msgs: seq<Message>, from: nat): (r: seq<Message>)
    ensures |r| == |msgs|
    ensures forall i :: 0 <= i < |msgs| && (i < from || msgs[i].role == User) ==> r[i] == msgs[i]
    ensures forall i :: from <= i < |msgs| && msgs[i].role == Assistant ==>
      r[i] == msgs[i].(isThinking := Some(false))
  {
    seq(|msgs|, i requires 0 <= i < |msgs| =>
      if i >= from && msgs[i].role == Assistant then msgs[i].(isThinking := Some(false)) else msgs[i])
  }

  /** The turn as evidently intended: the final step stops every message of the turn from
      thinking, not only the last one, so a failed turn leaves no spinner behind. */
  function TurnFixed(msgs: seq<Message>, text: string, t: Transport, parse: string -> Option<Payload>,
                     clock: nat -> string): (r: seq<Message>)
    ensures |r| == |msgs| + (if t.failed then 3 else 2)
    ensures r[..|msgs|] == msgs
    ensures r[|msgs|] == UserMessage(text)
    ensures forall i :: |msgs| <= i < |r| && r[i].role == Assistant ==> r[i].isThinking == Some(false)
    ensures t.failed ==> Last(r) == Apology
    ensures r[|msgs| + 1] == Last(Streamed(msgs, text, t, parse, clock)).(isThinking := Some(false))
  {
    var sent := Send(msgs, text);
    var streamed := Fold(sent, EventsOf(Read(t.chunks).frames, parse), clock);
    assert streamed[..|msgs| + 1] == sent[..|msgs| + 1];
    var apology := if t.failed then [Apology] else [];
    var ended := streamed + apology;
    SlicesOfAppend(streamed, apology, |msgs| + 1);
    var r := SettleFrom(ended, |msgs|);
    assert r[..|msgs|] == msgs;
    r
  }

  /** The corrected turn agrees with the turn as written whenever the transport did not fail:
      then the last message is the only assistant message of the turn. */
  lemma TurnFixedAgreesWhenDelivered(msgs: seq<Message>, text: string, t: Transport,
                                     parse: string -> Option<Payload>, clock: nat -> string)
    requires !t.failed
    ensures TurnFixed(msgs, text, t, parse, clock) == Turn(msgs, text, t, parse, clock)
  {
    var sent := Send(msgs, text);
    var streamed := Fold(sent, EventsOf(Read(t.chunks).frames, parse), clock);
    var a := TurnFixed(msgs, text, t, parse, clock);
    var b := Turn(msgs, text, t, parse, clock);
    assert streamed[..|msgs| + 1] == sent[..|msgs| + 1];
    assert streamed[|msgs|] == UserMessage(text);
    forall i | 0 <= i < |a|
      ensures a[i] == b[i]
    {
      if i == |msgs| + 1 {
      } else if i == |msgs| {
        assert b[..|msgs| + 1][i] == b[i];
      } else {
        assert b[..|msgs|][i] == b[i];
      }
    }
  }

  /** The clock as seen by events that come after `n` others. */
  function Later(clock: nat -> string, n: nat): nat -> string {
    (k: nat) => clock(n + k)
  }

  /** Applying the events of `a` and then those of `b` is applying `a + b`, the ids of `b`'s
      events being taken further along the clock. */
  lemma {:induction false} FoldAppend(msgs: seq<Message>, a: seq<Event>, b: seq<Event>,
                                      clock: nat -> string)
    ensures Fold(msgs, a + b, clock) == Fold(Fold(msgs, a, clock), b, Later(clock, |a|))
    decreases |b|
  {
    if |b| == 0 {
      assert a + b == a;
    } else {
      var b' := AllButLast(b);
      LastOfAppend(a, b);
      FoldAppend(msgs, a, b', clock);
      assert Later(clock, |a|)(|b| - 1) == clock(|a + b| - 1);
    }
  }

  /** A turn in which one tool call starts and ends and the answer then streams as tokens:
      the user's message and one answer follow the history; the answer carries exactly one
      step, complete with the output and labelled by the tool, its content is the tokens'
      text, and it stops thinking once that text is longer than five UTF-16 code units. (With the
      tool `list_employees_tool` the label is "Listing employees...", see
      `FriendlyNames.ListEmployeesLabel`.) */
  lemma ToolThenAnswer(msgs: seq<Message>, text: string, id: string, name: string,
                       input: Option<string>, output: Option<string>, texts: seq<string>,
                       clock: nat -> string)
    requires id != ""
    ensures var events := [ToolStart(Some(id), name, input), ToolEnd(Some(id), output)] + Tokens(texts);
      var r := Fold(Send(msgs, text), events, clock);
      && |r| == |msgs| + 2 && r[..|msgs|] == msgs && r[|msgs|] == UserMessage(text)
      && StepsOf(Last(r)) == [Step(id, FriendlyName(name), name, ToolCall, input, output, Complete)]
      && Last(r).content == Concat(texts)
      && (Utf16Length(Concat(texts)) > 5 ==> Last(r).isThinking == Some(false))
      && (Utf16Length(Concat(texts)) <= 5 ==> Last(r).isThinking == Some(true))
  {
    var e0 := ToolStart(Some(id), name, input);
    var e1 := ToolEnd(Some(id), output);
    var sent := Send(msgs, text);
    var m2 := Fold(sent, [e0, e1], clock);
    SentThenTool(msgs, text, id, name, input, output, clock);
    var later := Later(clock, 2);
    FoldAppend(sent, [e0, e1], Tokens(texts), clock);
    AnswerTokens(m2, texts, later);
    var r := Fold(m2, Tokens(texts), later);
    var step := Step(id, FriendlyName(name), name, ToolCall, input, output, Complete);
    AnswerShape(msgs, text, m2, r, step, texts);
  }

  /** The bookkeeping of `ToolThenAnswer`: the tokens changed only the answer, so what held of
      the transcript before them still holds of every earlier message. */
  lemma AnswerShape(msgs: seq<Message>, text: string, m2: seq<Message>, r: seq<Message>, step: Step,
                    texts: seq<string>)
    requires |m2| == |msgs| + 2 && m2[..|msgs|] == msgs && m2[|msgs|] == UserMessage(text)
    requires StepsOf(Last(m2)) == [step]
    requires |r| == |m2| && r[..|m2| - 1] == m2[..|m2| - 1] && Last(r).steps == Last(m2).steps
    ensures |r| == |msgs| + 2 && r[..|msgs|] == msgs && r[|msgs|] == UserMessage(text)
    ensures StepsOf(Last(r)) == [step]
  {
    PrefixKept(m2, r, |msgs|);
  }

  /** Tokens streamed into a thinking answer that is still empty. */
  lemma AnswerTokens(msgs: seq<Message>, texts: seq<string>, clock: nat -> string)
    requires IsOpen(msgs) && Last(msgs).isThinking == Some(true) && Last(msgs).content == ""
    ensures var r := Fold(msgs, Tokens(texts), clock);
      && Last(r).steps == Last(msgs).steps
      && Last(r).content == Concat(texts)
      && (Utf16Length(Concat(texts)) > 5 ==> Last(r).isThinking == Some(false))
      && (Utf16Length(Concat(texts)) <= 5 ==> Last(r).isThinking == Some(true))
  {
    TokensConcatenate(msgs, texts, clock);
    if |texts| == 0 {
      assert Concat(texts) == "";
    }
  }

  /** The first half of `ToolThenAnswer`: after the send, a tool starts and ends. */
  lemma SentThenTool(msgs: seq<Message>, text: string, id: string, name: string,
                     input: Option<string>, output: Option<string>, clock: nat -> string)
    requires id != ""
    ensures var events := [ToolStart(Some(id), name, input), ToolEnd(Some(id), output)];
      var r := Fold(Send(msgs, text), events, clock);
      && |r| == |msgs| + 2 && r[..|msgs|] == msgs && r[|msgs|] == UserMessage(text)
      && StepsOf(Last(r)) == [Step(id, FriendlyName(name), name, ToolCall, input, output, Complete)]
      && Last(r).isThinking == Some(true) && Last(r).content == ""
  {
    var e0 := ToolStart(Some(id), name, input);
    var e1 := ToolEnd(Some(id), output);
    var sent := Send(msgs, text);
    assert !HasRun(StepsOf(Last(sent)), Some(id));
    FoldTwo(sent, e0, e1, clock);
    StartThenEnd(sent, id, name, input, output, clock(0), clock(1));
    var r := Fold(sent, [e0, e1], clock);
    assert r[..|msgs| + 1] == sent[..|msgs| + 1];
    assert r[|msgs|] == sent[..|msgs| + 1][|msgs|];
  }

  /** Two events applied in order. */
  lemma FoldTwo(msgs: seq<Message>, e0: Event, e1: Event, clock: nat -> string)
    ensures Fold(msgs, [e0, e1], clock) == ApplyEvent(ApplyEvent(msgs, e0, clock(0)), e1, clock(1))
  {
    assert AllButLast([e0, e1]) == [e0] && Last([e0, e1]) == e1;
    assert AllButLast([e0]) == [] && Last([e0]) == e0;
    assert Fold(msgs, [e0], clock) == ApplyEvent(Fold(msgs, [], clock), e0, clock(0));
  }
}
